=== FILE: README.md ===
# rtw89 firmware download and host/chip command engine, in Dafny

This project models the core of `fw.c` from the rtw89 Wi-Fi driver (Realtek 802.11ax chips). That core is the part of the driver that:

- parses a firmware image;
- downloads it to the chip's WCPU in two phases (headers, then sections cut into packets);
- decides whether the firmware came up;
- builds H2C (host-to-chip) command headers, numbering them with a per-session sequence counter;
- dispatches C2H (chip-to-host) event frames from a queue;
- exchanges short messages through the four-register mailbox;
- chooses the HE packet padding for a station from its HE capabilities.

Modules, one file each:

| file | module | what it holds |
|---|---|---|
| `base.dfy` | `Base` | bytes and machine words as bounded integers, little-endian reads, errno values |
| `fw_image.dfy` | `FwImage` | the image container. `Parse` is the specification of `rtw89_fw_hdr_parser`; `HdrParser` is that parser over the image array; layout lemmas; the parser as written (see Findings) |
| `h2c_header.dfy` | `H2cHeader`, `SkBuff` | the 8-byte H2C header as a record, its wire encoding, the two header builders as values, sequence-counter lemmas; packet buffers reduced to headroom and data |
| `poll.dfy` | `Poll` | `read_poll_timeout`: the values the chip shows over time are a parameter, and the loop is proved against a recursive specification |
| `segment.dfy` | `Segment` | cutting a payload into packets of at most 2020 bytes, and putting them back together |
| `download.dfy` | `FwDownload` | status classification, the download's return code and packet trace as functions of the image and the chip's behaviour, and the properties of both |
| `c2h.dfy` | `C2h` | C2H header fields and the dispatch decision for one frame and for a queue |
| `he_padding.dfy` | `HePadding` | `__get_sta_he_pkt_padding`, as written and corrected (see Findings) |
| `device.dfy` | `Rtw89` | class `Rtw89Dev`, the state `fw.c` updates in place: firmware version, H2C counters, FW_RDY and RUNNING flags, register file and access log, transmit log, C2H queue and handler log. It also holds the methods that change that state, each proved against the functions above |

## Modelling choices

- The chip is seen through three things:
  - a register file (`map<nat, u32>`, absent registers read 0);
  - the log of register accesses the host makes;
  - the log of frames handed to `rtw89_h2c_tx`.
- What the chip shows during a poll is a non-empty sequence of sampled register values. The poll succeeds at the first sample that meets its condition; otherwise it times out with the last sample.
- `Env` gathers the chip's behaviour during one download:
  - the H2C-path and FWDL-path samples;
  - whether the header packet is allocated and what its transmit returns;
  - a `ChunkFate` for each section packet, numbered across the session: sent, allocation failure or transmit failure;
  - the ready-status samples.
- Return codes are the C `int`s of the source: 0, `-ENOMEM`, `-EBUSY`, `-EINVAL`, `-ETIMEDOUT` and the bare `-1` of the transmit paths.
- Constants that come from `fw.h`, `reg.h`, `mac.h` and `core.h` use the upstream driver's values; those headers are not part of this model. The field getters are byte reads at the upstream positions:
  - section count: byte 25;
  - part size: bytes 28-29;
  - version: bytes 4-7, 16-21 and 31;
  - section header: word 0 holds the download address, word 1 holds the size (bits 23:0), the checksum flag (bit 28) and the redownload flag (bit 29).
- Where the code and the driver's documented behaviour disagree, the model follows the code:
  - `rtw89_fw_download` reports every header-phase and main-phase failure as `-EBUSY`, including the ready check's `-EINVAL`;
  - a parse failure passes on `-EINVAL`;
  - an H2C-path timeout passes on `-ETIMEDOUT`;
  - the checksum trailer `FWDL_SECTION_CHKSUM_LEN` is 8 bytes, so a 10-byte section with a checksum occupies 18 bytes (`FwImage.TwoSectionImage`).

## Model

| member | source | states |
|---|---|---|
| FwImage.SecNum | fw.c:90 | the section count is one byte of the fixed header, so below 256 (range only; the field's position is in the definition) |
| FwImage.SetPartSize | fw.c:93 | writing the part size changes only bytes 28-29, which then read back as the size; the version fields are unchanged |
| FwImage.VersionOf | fw.c:126-135 | the recorded year is the 16-bit little-endian value of header bytes 20-21, the low half of header word 5; the other fields are header bytes 4-7, 16-19 and 31 |
| FwImage.SecDlAddr | fw.c:105-106 | a download address is always below 2^29 (range only; the field's position is in the definition) |
| FwImage.DlAddrIsMasked | fw.c:105-106 | the download address is the raw word with its top 3 bits cleared |
| FwImage.SecSize | fw.c:101 | the declared section size is a 24-bit field (range only; the field's position is in the definition) |
| FwImage.Table | fw.c:100-111 | the loop builds one row per section header |
| FwImage.TableRow | fw.c:100-111 | row i is built from section header i, and its payload starts after the header and the payloads of rows 0..i-1 |
| FwImage.TableRows | fw.c:100-111 | every row i of the table is section header i with its payload at the header length plus the lengths of rows 0..i-1 |
| FwImage.TableFrame | fw.c:97-110 | the section table depends on nothing but the section-header bytes |
| FwImage.TableStep | fw.c:107-108 | each row's payload starts where the previous row's payload ends |
| FwImage.Parse | fw.c:79-119 | the only error the parser returns is -EINVAL; on success the headers lie inside the image |
| FwImage.ParsedInfo | fw.c:90-118 | a successful parse returns the section count, header length 32 + 16n and the table, and the payloads fill the image exactly |
| FwImage.ParseLayout | fw.c:90-108 | header length = 32 + 16 × section count; one row per section, in header order; row i is section header i with payload at header length + the lengths of sections 0..i-1; payloads end at the image end |
| FwImage.ParseContiguous | fw.c:95-118 | the first payload starts right after the headers, each next one where the previous ends, and the last ends at the image end |
| FwImage.ParseSectionFields | fw.c:101-106 | each row's length is size + 8 exactly when the checksum flag is set, its redownload flag is the header's, and its address is the raw one mod 2^29 |
| FwImage.ParseRejectsResize | fw.c:113-116 | keeping the headers but changing the image length by any amount makes the parse fail |
| FwImage.PartSizeKeepsParse | fw.c:93 | writing the part size into the header changes neither the section count nor the parse |
| FwImage.TwoSectionImage | fw.c:100-118 | a worked image: sections of 16 bytes and of 10 bytes + checksum parse to rows of length 16 and 18 at offsets 64 and 80 |
| FwImage.ParseAsWritten | fw.c:79-119 | the parser as written: it reads the count, the part-size word and every section header before any length check; a success touched only bytes inside the image |
| FwImage.AsWrittenReadsPastImage | fw.c:90-93 | for an empty image, the parser as written reads the section count and rewrites the part size beyond the image (Finding 1) |
| FwImage.AsWrittenReadsSectionHdrPastImage | fw.c:100-106 | for a 32-byte image announcing one section, the parser as written reads a section header that lies wholly beyond the image (Finding 1) |
| FwImage.ParseMatchesAsWritten | fw.c:79-119 | for every image of length `len` lying in memory that holds the headers it announces, `Parse` returns what the parser as written returns, and a success never touches a byte beyond the image |
| FwImage.ParseRejectsTruncated | fw.c:90-116 | an image shorter than the headers it announces is rejected with -EINVAL |
| FwImage.WalkSections | fw.c:98-111 | the header-walking loop builds exactly the specified table, and its payload cursor ends at header length + total payload length |
| FwImage.ReadSectionHdr | fw.c:101-106 | reading section header i from the image array yields exactly table row i for the given payload offset |
| FwImage.HdrParser | fw.c:79-119 | the parser over the image array returns `Parse` of the original image and writes 2020 into the part size of any image of at least 32 bytes, changing nothing else |
| H2cHeader.Encode | fw.c:154-163 | the header is 8 bytes whose little-endian words are hdr0 (type, category, class, function, sequence) and hdr1 (total length, ack bits) |
| H2cHeader.Decode | fw.c:154-163 | every field read back fits its bit field |
| H2cHeader.DecodeEncode | fw.c:154-163 | decoding an encoded header, whatever payload follows, gives the header back |
| H2cHeader.SetHdr | fw.c:152-163 | the built header fits the wire format |
| H2cHeader.SetHdrOnWire | fw.c:150-163 | on the wire: sequence = counter value; receive-ack set iff asked or counter mod 4 = 0; done-ack as asked; length field = payload length + 8 mod 2^14 |
| H2cHeader.SetHdrFwdl | fw.c:168-185 | the download-phase header fits the wire format; what it says on the wire is stated by `H2cHeader.SetHdrFwdlOnWire` |
| H2cHeader.SetHdrFwdlOnWire | fw.c:175-184 | the download-phase header sets neither ack bit, carries the counter value and the same length field, and otherwise equals the normal header |
| H2cHeader.SessionSequence | fw.c:136-137 | after a reset, frame n of a session carries sequence n mod 256, and that is a multiple of 4 exactly when n is |
| H2cHeader.EveryFourthFrameAcked | fw.c:152-153 | every 4th frame of a session asks for a receive-ack even when its caller does not |
| SkBuff.AllocSkb | fw.c:12-27 | a new buffer is empty, with exactly 24 bytes of headroom, or 32 when room for the H2C header is asked for |
| SkBuff.H2cFrame | fw.c:187-201 | a buffer allocated with header room, filled with the payload, then given the encoded header in front holds the 8 header bytes followed by the payload, with the 24 extra bytes of headroom left |
| Poll.PollSpecMeaning | fw.c:52-54 | a poll succeeds iff some sample meets the condition; on success it yields the first such sample, on timeout the last one |
| Poll.PollSpec | fw.c:52-54 | the value a poll yields is one of its samples, and the poll succeeds exactly when that value meets the condition; its full meaning is stated by `Poll.PollSpecMeaning` |
| Poll.PollOutcome | fw.c:52-54 | a poll returns 0 exactly when some sample meets the condition, and -ETIMEDOUT when none does |
| Poll.ReadPollTimeout | fw.c:52-54 | the polling loop returns exactly what the poll specification says |
| Segment.ChunksFlatten | fw.c:251-273 | the packets of a section, laid end to end, are exactly its bytes |
| Segment.Chunks | fw.c:251-273 | a payload gives no packets exactly when it is empty, and every packet holds between 1 and the per-packet limit of bytes; that they rebuild the payload is stated by `Segment.ChunksFlatten` |
| Segment.FlattenAppend | fw.c:289-294 | the packets of consecutive sections laid end to end are the sections' bytes one after the other |
| Segment.ChunkSizes | fw.c:251-255 | a payload gives ceil(len/2020) packets; all but the last hold 2020 bytes, and the last holds the rest (1 to 2020) |
| FwDownload.FwdlStatus | fw.c:39-44 | the download status is a 3-bit field of the control register (range only; the field's position is in the definition) |
| FwDownload.RdyCode | fw.c:56-72 | the ready check's classification: 0 exactly when the poll met INIT_RDY, otherwise -EINVAL or -EBUSY |
| FwDownload.CheckRdyRet | fw.c:47-77 | the ready check returns 0, -EINVAL or -EBUSY; which one is stated by `FwDownload.CheckRdyOutcome` |
| FwDownload.CheckRdyOutcome | fw.c:47-77 | the ready check returns 0 iff some sample shows INIT_RDY; -EINVAL iff none does and the last status is checksum, security or cut mismatch; otherwise -EBUSY |
| FwDownload.FateCode | fw.c:257-268 | a packet's code is 0 only when it was sent; -ENOMEM on allocation failure, -1 on transmit failure |
| FwDownload.FirstFail | fw.c:289-292 | the index of the first packet not sent is at most the number of packets |
| FwDownload.FirstFailMeaning | fw.c:251-292 | every packet before the first failure was sent, and the one at it was not |
| FwDownload.FirstFailIs | fw.c:251-292 | the first failure is the position after a run of sent packets that ends in an unsent one or at the end |
| FwDownload.AllChunksStep | fw.c:289-294 | the packets of one more section follow those of the earlier sections |
| FwDownload.AllChunksPrefix | fw.c:289-294 | the packets of the first sections are a prefix of the packets of all sections |
| FwDownload.SumLenPrefix | fw.c:107-108 | adding one row to the total length adds its length and stays within the full total |
| FwDownload.ParsedSectionsFit | fw.c:100-118 | every parsed section lies inside the image |
| FwDownload.TileStep | fw.c:246-272 | the packets of one more section extend the rebuilt bytes by exactly its payload |
| FwDownload.PayloadStartStep | fw.c:107-108 | where payload k+1 starts is where payload k ends |
| FwDownload.PayloadsTile | fw.c:242-294 | the packets of sections 0..k-1 rebuild the image from the end of the headers to the start of payload k |
| FwDownload.TileNext | fw.c:289-294 | adding section k's packets extends the rebuilt image to the start of payload k+1 |
| FwDownload.PacketsRebuildImage | fw.c:242-294 | the section packets of a parsed image, laid end to end, are the whole image after its headers |
| FwDownload.PatchedParse | fw.c:93 | the image with its part size written parses as before, and its sections lie inside it |
| FwDownload.HdrPhaseRet | fw.c:187-240 | the header phase returns 0, -ENOMEM, -1 or -ETIMEDOUT; when it is 0 is stated by `FwDownload.HdrPhaseOutcome` |
| FwDownload.MainPhaseRet | fw.c:282-305 | the main phase returns 0, a packet's -ENOMEM or -1, or the ready check's -EINVAL or -EBUSY; when it is 0 is stated by `FwDownload.MainPhaseOutcome` |
| FwDownload.PhasesRet | fw.c:352-362 | once the H2C path is ready, the download returns 0 or -EBUSY; when the header phase's and the main phase's own codes are 0 is stated by `FwDownload.HdrPhaseOutcome` and `FwDownload.MainPhaseOutcome`, and the combined code by `FwDownload.DownloadErrorMapping` |
| FwDownload.PhasesTx | fw.c:352-362 | the frames the two phases send: the header frame on the normal path first, every later frame on the download path; their contents are stated by `Rtw89.PhasesSent` |
| FwDownload.DownloadRet | fw.c:328-369 | the download returns 0, -EINVAL, -ETIMEDOUT or -EBUSY; when each occurs is stated by `FwDownload.DownloadErrorMapping` and `FwDownload.DownloadFailureCodes` |
| FwDownload.DownloadTx | fw.c:328-369 | the frames a download sends: the header frame on the normal path first, every later frame on the download path; their contents are stated by `FwDownload.DownloadOkSent` and `FwDownload.DownloadSendsImage` |
| FwDownload.HdrPhaseOutcome | fw.c:187-240 | the header phase succeeds iff the packet is allocated and sent and some sample shows the FWDL path ready |
| FwDownload.MainPhaseOutcome | fw.c:282-305 | the main phase succeeds iff every section packet is sent and some sample shows INIT_RDY |
| FwDownload.DownloadErrorMapping | fw.c:328-369 | download returns one of 0, -EINVAL, -ETIMEDOUT, -EBUSY; -EINVAL iff the parse fails; 0 iff every phase succeeds |
| FwDownload.DownloadFailureCodes | fw.c:342-362 | -ETIMEDOUT iff the image parses and no sample shows the H2C path ready; -EBUSY iff the H2C path came up and the header or main phase failed |
| FwDownload.HdrPktOnWire | fw.c:187-215 | the header packet: counter value as sequence, no ack bits, length = headers + 8, category MAC, class FWDL, function FWHDR_DL, then the headers with the part size they carry |
| FwDownload.DownloadSendsImage | fw.c:328-369 | a successful download sends the header packet with sequence 0 and part size 2020, then packets of 1 to 2020 bytes that rebuild the image after its headers |
| FwDownload.DownloadOkSent | fw.c:328-369 | a successful download sends the header packet with sequence 0, then every section packet |
| FwDownload.PhasesOk | fw.c:352-362 | when both phases succeed, no section packet failed: the trace is the header packet then all section packets |
| FwDownload.ChunkBounds | fw.c:251-255 | every download packet holds between 1 and 2020 bytes |
| Rtw89.ApplyOpsSnoc | fw.c:950-952 | register accesses take effect one after the other |
| Rtw89.ApplyOp | fw.c:950-952 | a read changes no register and a 32-bit write stores its value; the 8-bit write's effect is stated by `Rtw89.Write8Low` and `Rtw89.Write8Elsewhere` |
| Rtw89.MailboxWritesEffect | fw.c:950-951 | after the data writes, register i holds word i and every other register is unchanged |
| Rtw89.MailboxWriteEffect | fw.c:950-952 | after a mailbox write, the chip finds words 0..n-1 in the data registers, the rest untouched, and the trigger in the control register |
| Rtw89.Write8Low | fw.c:952 | an 8-bit register write leaves the written value in the register's low byte |
| Rtw89.Write8Elsewhere | fw.c:952 | an 8-bit register write changes no other register |
| Rtw89.MailboxStep | fw.c:950-951 | one more data write extends the access log and the register file by that write |
| Rtw89.Rtw89Dev.UpdateVer | fw.c:121-142 | records the image's version fields and resets both counters to 0 |
| Rtw89.Rtw89Dev.PktSetHdr | fw.c:144-166 | the frame gets the header built from the counter value before the call; the counter advances by one mod 256 |
| Rtw89.Rtw89Dev.PktSetHdrFwdl | fw.c:168-185 | the download-phase header carries the counter value and changes no state |
| Rtw89.Rtw89Dev.H2cCmd | fw.c:427-456 | the shared builder shape: allocation failure is -ENOMEM with the counter unchanged; transmit failure is -EBUSY with the counter advanced and nothing sent; success sends header + payload |
| Rtw89.Rtw89Dev.CheckRdy | fw.c:47-77 | returns the classified status, and sets FW_RDY exactly on success |
| Rtw89.Rtw89Dev.DownloadHdr | fw.c:187-240 | returns the header-phase code; the header packet is sent when allocated and transmitted; both halt registers are cleared only on success; the counter is not advanced |
| Rtw89.Rtw89Dev.DownloadSection | fw.c:242-280 | cuts the section into packets of at most 2020 bytes and sends them in order up to the first failure; returns 0 exactly when all went out, else -ENOMEM or -1 for the failing packet; the trace grows by exactly the packets sent |
| Rtw89.Rtw89Dev.SendChunk | fw.c:257-269 | one packet: -ENOMEM if it cannot be allocated, -1 if it cannot be sent, and it joins the trace only when sent |
| Rtw89.Rtw89Dev.DownloadMain | fw.c:282-305 | sends the sections' packets up to the first failure across sections, returns that code or the ready check's, and sets FW_RDY only on success |
| Rtw89.Rtw89Dev.Download | fw.c:328-369 | returns the specified code; the fail dump runs exactly on failure; sends the specified packet trace; the part size is written into the image; the version and counters are captured iff the parse succeeds |
| Rtw89.Rtw89Dev.DownloadStages | fw.c:343-362 | after the parse: an H2C-path timeout returns -ETIMEDOUT with nothing sent, else the two phases decide |
| Rtw89.Rtw89Dev.DownloadPhases | fw.c:352-362 | header then main phase; returns -EBUSY if either fails, else 0; sends the header packet if it went out, then the section packets only if the header phase succeeded; the halt registers are cleared iff the header phase succeeded |
| Rtw89.DownloadParsed | fw.c:336-343 | a parsed image is at least a header long, and once patched its sections and its headers lie inside it |
| Rtw89.PhasesSent | fw.c:352-362 | once the header phase succeeds, the trace is the header packet with sequence 0 followed by the main phase's packets |
| Rtw89.SectionStep | fw.c:251-272 | the next packet of the section loop is the next chunk of what remains |
| Rtw89.FwdlPktsSnoc | fw.c:264-272 | sending one more packet extends the trace by that packet |
| Rtw89.FwdlPktsAppend | fw.c:289-294 | the trace of two runs of packets is the two traces one after the other |
| Rtw89.MainStepOk | fw.c:289-294 | a section sent whole extends the trace by exactly its packets |
| Rtw89.MainStepFails | fw.c:289-292 | a section failing at its j-th packet is the first failure of the whole phase, with everything before it sent |
| Rtw89.MainAllSent | fw.c:289-298 | when every section was sent, the ready check decides the phase |
| Rtw89.Rtw89Dev.C2hIrqsafe | fw.c:884-888 | a received frame joins the tail of the queue |
| Rtw89.Rtw89Dev.C2hWork | fw.c:919-932 | empties the queue, handling its frames front first; the handler log grows by exactly the actions for each frame, in queue order |
| Rtw89.Rtw89Dev.WriteH2cReg | fw.c:934-963 | if the control register never reads 0, returns -ETIMEDOUT and writes nothing; otherwise writes min(len, 4) words in index order, then the trigger, and returns the answer poll's code |
| Rtw89.Rtw89Dev.WriteMailbox | fw.c:950-952 | writes min(len, 4) data words in index order, then the trigger byte, and nothing else |
| Rtw89.Rtw89Dev.ReadC2hReg | fw.c:965-989 | with the control register at 0, returns -EINVAL, function id 0xff, and reads no data register; otherwise reads all 4 data registers in order, clears the control byte, and takes id = bits 6:0 of word 0 and content after 2 bytes |
| C2h.Category | fw.c:893 | the category is a 2-bit field (range only; the field's position is in the definition) |
| C2h.Class | fw.c:894 | the class is a 6-bit field (range only; the field's position is in the definition) |
| C2h.Func | fw.c:895 | the function is an 8-bit field (range only; the field's position is in the definition) |
| C2h.Len | fw.c:896 | the length is a 14-bit field (range only; the field's position is in the definition) |
| C2h.CmdHandle | fw.c:890-917 | not running: nothing happens. Otherwise MAC frames go to the MAC handler and OUTSRC frames to the PHY handler, with length, class and function; the hex dump follows unless the frame is MAC C2H_LOG; all actions are about the frame |
| C2h.HandledOne | fw.c:899-913 | one frame reaches a handler exactly when the device runs and the frame is MAC or OUTSRC |
| C2h.HandledFramesAppend | fw.c:925-931 | handler calls of consecutive frames come one after the other |
| C2h.HandledAtMostOne | fw.c:899-913 | an action list of at most one action hands its frame to a handler exactly when that action is a handler call |
| C2h.DrainHandlesInOrder | fw.c:919-932 | draining a queue hands exactly its MAC and OUTSRC frames to the handlers, in queue order, and nothing while not running |
| C2h.DrainLog | fw.c:919-932 | draining while not running does nothing, and each frame produces at most two actions (a handler call and a hex dump); which frames reach a handler is stated by `C2h.DrainHandlesInOrder` |
| C2h.DrainStep | fw.c:925-931 | draining one more frame of the queue appends exactly that frame's actions |
| HePadding.NominalPad | fw.c:603-604 | the nominal padding is a 2-bit field (range only; the field's position is in the definition) |
| HePadding.RuBitmap | fw.c:610 | the RU bitmask is a 4-bit field (range only; the field's position is in the definition) |
| HePadding.SetBelow | fw.c:611 | counts at most i set bits below bit i |
| HePadding.Nss | fw.c:588 | the stream index is below 8 |
| HePadding.PpetReadInBounds | fw.c:612-627 | every 16-bit threshold read stays inside the 25-byte PPE field, and the bit cursor never wraps its u8 |
| HePadding.PadFromPpe | fw.c:629-634 | a threshold record gives a padding of 0, 1 or 2 |
| HePadding.PadAt | fw.c:614-635 | the padding for one bandwidth is 0, 1 or 2 |
| HePadding.ThresholdPads | fw.c:614-635 | the threshold loop yields one padding per bandwidth |
| HePadding.Pads | fw.c:583-636 | corrected decision: non-HE keeps the pads; without PPE thresholds every bandwidth gets the nominal padding; with them, each gets its threshold padding |
| HePadding.PadsAsWritten | fw.c:583-636 | the decision as written yields one padding per bandwidth |
| HePadding.NominalPaddingLost | fw.c:600-616 | a station without PPE thresholds and with nominal padding 2: the code as written stores [1,1,1], the corrected decision [2,2,2] (Finding 2) |
| HePadding.FillFromThresholds | fw.c:610-635 | the threshold loop fills the array with the threshold paddings |
| HePadding.GetStaHePktPaddingAsWritten | fw.c:583-636 | the function as written leaves the array holding `PadsAsWritten` |
| HePadding.GetStaHePktPadding | fw.c:583-636 | the corrected function leaves the array holding `Pads` |

## Left out

- Firmware loading and unloading (`rtw89_load_firmware`, its callback, `rtw89_wait_firmware_completion`, `rtw89_unload_firmware`, fw.c:371-424): these are kernel completion and request-firmware plumbing with nothing to compute.
- Rtw89.Rtw89Dev.Download: on every failure path the source runs `rtw89_fw_dl_fail_dump` (fw.c:307-326, reached through fw.c:366-368). It is not modelled beyond a count of its runs, kept in the ghost field `failDumps`. The dump reads the WCPU control register, the boot debug word and 15 times the debug port, and logs them. It also writes 0xf200f2 to `R_AX_DBG_CTRL` and sets the `B_AX_SEL_0XC0` field of `R_AX_SYS_STATUS1` with a read-modify-write (fw.c:318-319). The addresses and the field mask come from `reg.h`, which is not part of this model. So the `regs` and `regLog` clauses of `Download` cover only the modelled accesses: after a failure the real register file also differs in those two registers.
- Poll timing (`FWDL_WAIT_CNT`, the microsecond budgets, `mdelay`, `udelay`): real time is not modelled. A poll is its sequence of samples, and the poll reads are not written to the register log.
- The per-command payload builders (fw.c:427-882): their layouts are `SET_*` macros from headers that are not part of this model. `Rtw89.Rtw89Dev.H2cCmd` models the shape they share, with the payload as a parameter. The size mismatch in `rtw89_fw_h2c_macid_pause` depends on a struct size that is not available.
- The fixed capacity of `section_info` (`FWDL_SECTION_MAX_NUM` in fw.h) is not part of this model. The section table is an unbounded sequence.
- The mutex, the work queue and the IRQ-safe queue locking: the queue is drained sequentially, in the order frames were added.
- The contents of log messages and of the hex dump: a hex dump is recorded only as an action.
- `sk_buff`: reduced to headroom and data; freeing a buffer is not modelled.
- `__rtw89_fw_download_hdr` returns its `-ENOMEM`/`-1` through `rtw89_fw_download_hdr`, which `rtw89_fw_download` then turns into `-EBUSY`. Only the final code is stated about the whole download.
- Rtw89.Rtw89Dev.C2hIrqsafe: a queued C2H frame is required to hold its 8-byte header (`C2H_HDR_LEN`), and `C2h.CmdHandle` and `C2h.DrainLog` require the same. The source queues any frame and reads the header without a length check (fw.c:884-896); frames shorter than the header are not modelled.
- HePadding.Nss: requires `1 <= rx_nss` and `1 <= tx_nss <= 8`. With `rx_nss == 0`, `nss` wraps to 255 in its u8, and the 16-bit threshold read (fw.c:622) can reach byte 32 of the 25-byte PPE field, up to 8 bytes past its end; the model does not cover that input.
- Rtw89.Rtw89Dev.WriteH2cReg: the words the chip would read are stated through `Rtw89.MailboxWriteEffect` on the register file. What the chip does with them is not modelled.
- Rtw89.Rtw89Dev.Download and the other state-changing methods: the register and transmit logs record only the accesses listed here. `rtw89_h2c_tx` and `rtw89_read*`/`rtw89_write*` are not modelled beyond their effect on those logs and on the register file.

## Findings

| source | as written | input that shows it | evidently intended | confidence | as-written member | corrected member |
|---|---|---|---|---|---|---|
| fw.c:90-111 | the parser reads the section count, rewrites the part size, and reads every announced section header before comparing any offset with `len` | an empty image (len 0), or a 32-byte image whose byte 25 says 1 section: bytes up to offset 32, or 40, are read (and bytes 28-29 written) beyond the image | reject an image shorter than the headers it announces before touching it | not executed | FwImage.AsWrittenReadsPastImage | FwImage.ParseRejectsTruncated |
| fw.c:600-616 | when the PPE Thresholds field is absent, the nominal padding is stored for all bandwidths, then the threshold loop runs anyway and overwrites it (an all-zero bitmask gives 1 everywhere) | an HE station with PHY cap byte 9 = 0x80 (nominal padding 2, i.e. 16 µs) and no PPE thresholds: the result is [1,1,1] | return after storing the nominal padding, giving [2,2,2] | not executed | HePadding.NominalPaddingLost | HePadding.Pads |

=== FILE: base.dfy ===
/** Bytes, little-endian words and the kernel error numbers the
    driver returns. Machine words are modelled as bounded integers; every
    truncation the C code performs is written out with `%`. */
module Base {

  type byte = b: int | 0 <= b < 0x100
  type u8 = x: int | 0 <= x < 0x100
  type u16 = x: int | 0 <= x < 0x1_0000
  type u32 = x: int | 0 <= x < 0x1_0000_0000

  // Linux errno values; the driver returns them negated.
  const ENOMEM: int := 12
  const EBUSY: int := 16
  const EINVAL: int := 22
  const ETIMEDOUT: int := 110

  /** The little-endian 16-bit word at byte offset `off` (le16_to_cpu). */
  function Le16(s: seq<byte>, off: nat): (w: u16)
    requires off + 2 <= |s|
    ensures w % 0x100 == s[off] && w / 0x100 == s[off + 1]
  {
    s[off] + 0x100 * (s[off + 1] as int)
  }

  /** The little-endian 32-bit word at byte offset `off` (le32_to_cpu). */
  function Le32(s: seq<byte>, off: nat): (w: u32)
    requires off + 4 <= |s|
    ensures w % 0x100 == s[off] && w / 0x100_0000 == s[off + 3]
  {
    s[off] + 0x100 * (s[off + 1] as int) + 0x1_0000 * (s[off + 2] as int) + 0x100_0000 * (s[off + 3] as int)
  }

  function Min(a: int, b: int): (m: int)
    ensures m <= a && m <= b && (m == a || m == b)
  {
    if a <= b then a else b
  }
}

=== FILE: c2h.dfy ===
/**
 * C2H (chip-to-host) event frames: the 8-byte header and the dispatch
 * decision rtw89_fw_c2h_cmd_handle takes for one frame.
 *   word 0: bits 1:0 category, 7:2 class, 15:8 function
 *   word 1: bits 13:0 length
 * The MAC and PHY handlers live outside this file; a call to either, and the
 * debug hex dump, are recorded as actions.
 */
module C2h {
  import opened Base

  const C2H_HDR_LEN: nat := 8

  const RTW89_C2H_CAT_TEST: nat := 0
  const RTW89_C2H_CAT_MAC: nat := 1
  const RTW89_C2H_CAT_OUTSRC: nat := 2

  const RTW89_MAC_C2H_FUNC_C2H_LOG: nat := 2

  function Category(f: seq<byte>): (c: nat)
    requires |f| >= C2H_HDR_LEN
    ensures c < 4
  {
    f[0] % 4
  }

  function Class(f: seq<byte>): (c: nat)
    requires |f| >= C2H_HDR_LEN
    ensures c < 0x40
  {
    f[0] / 4
  }

  function Func(f: seq<byte>): (c: nat)
    requires |f| >= C2H_HDR_LEN
    ensures c < 0x100
  {
    f[1]
  }

  function Len(f: seq<byte>): (l: nat)
    requires |f| >= C2H_HDR_LEN
    ensures l < 0x4000
  {
    f[4] + 0x100 * ((f[5] as int) % 0x40)
  }

  datatype C2hAction =
    | MacHandle(frame: seq<byte>, len: nat, cls: nat, func: nat)
    | PhyHandle(frame: seq<byte>, len: nat, cls: nat, func: nat)
    | HexDump(frame: seq<byte>)

  predicate IsHandler(a: C2hAction)
  {
    a.MacHandle? || a.PhyHandle?
  }

  /**
   * The actions taken for one frame, in the order they happen:
   *  - while the device is not running nothing happens at all;
   *  - a MAC frame goes to the MAC handler and an OUTSRC frame to the PHY
   *    handler, each with the decoded length, class and function; a TEST
   *    frame (or the unused category 3) reaches no handler;
   *  - the frame is hex-dumped after its handler, unless it is a MAC frame
   *    carrying the C2H_LOG function (in any class).
   */
  function CmdHandle(running: bool, f: seq<byte>): (acts: seq<C2hAction>)
    requires |f| >= C2H_HDR_LEN
    ensures !running ==> acts == []
    ensures running ==>
      && (MacHandle(f, Len(f), Class(f), Func(f)) in acts <==> Category(f) == RTW89_C2H_CAT_MAC)
      && (PhyHandle(f, Len(f), Class(f), Func(f)) in acts <==> Category(f) == RTW89_C2H_CAT_OUTSRC)
      && (HexDump(f) in acts <==>
           !(Category(f) == RTW89_C2H_CAT_MAC && Func(f) == RTW89_MAC_C2H_FUNC_C2H_LOG))
    ensures forall i, j :: 0 <= i < j < |acts| ==> IsHandler(acts[i]) && acts[j] == HexDump(f)
    ensures forall i :: 0 <= i < |acts| ==> acts[i].frame == f
  {
    if !running then []
    else
      var cat := Category(f);
      var handler :=
        if cat == RTW89_C2H_CAT_MAC then [MacHandle(f, Len(f), Class(f), Func(f))]
        else if cat == RTW89_C2H_CAT_OUTSRC then [PhyHandle(f, Len(f), Class(f), Func(f))]
        else [];
      var dump := !(cat == RTW89_C2H_CAT_MAC && Func(f) == RTW89_MAC_C2H_FUNC_C2H_LOG);
      handler + (if dump then [HexDump(f)] else [])
  }

  /** The actions of a whole queue drained in order. */
  function DrainLog(running: bool, q: seq<seq<byte>>): (acts: seq<C2hAction>)
    requires forall k :: 0 <= k < |q| ==> |q[k]| >= C2H_HDR_LEN
    ensures !running ==> acts == []
    ensures |acts| <= 2 * |q|
  {
    if |q| == 0 then [] else DrainLog(running, q[..|q| - 1]) + CmdHandle(running, q[|q| - 1])
  }

  /** The frames the handlers were given, in the order they were called. */
  function HandledFrames(acts: seq<C2hAction>): seq<seq<byte>>
  {
    if |acts| == 0 then []
    else HandledFrames(acts[..|acts| - 1])
         + (if IsHandler(acts[|acts| - 1]) then [acts[|acts| - 1].frame] else [])
  }

  /** Reference definition: the frames of the queue that a handler should
      see, i.e. the MAC and OUTSRC frames while running, in queue order. */
  function Dispatched(running: bool, q: seq<seq<byte>>): seq<seq<byte>>
    requires forall k :: 0 <= k < |q| ==> |q[k]| >= C2H_HDR_LEN
  {
    if |q| == 0 then []
    else
      var f := q[|q| - 1];
      Dispatched(running, q[..|q| - 1])
        + (if running && (Category(f) == RTW89_C2H_CAT_MAC || Category(f) == RTW89_C2H_CAT_OUTSRC)
           then [f] else [])
  }

  lemma HandledAtMostOne(a: seq<C2hAction>)
    requires |a| <= 1
    ensures HandledFrames(a) == if |a| == 1 && IsHandler(a[0]) then [a[0].frame] else []
  {
    if |a| == 1 {
      assert a[..0] == [];
    }
  }

  lemma {:induction false} HandledFramesAppend(a: seq<C2hAction>, b: seq<C2hAction>)
    ensures HandledFrames(a + b) == HandledFrames(a) + HandledFrames(b)
    decreases |b|
  {
    if |b| > 0 {
      assert (a + b)[..|a + b| - 1] == a + b[..|b| - 1];
      HandledFramesAppend(a, b[..|b| - 1]);
    } else {
      assert a + b == a;
    }
  }

  /** One frame reaches a handler exactly when it is MAC or OUTSRC and the
      device is running. */
  lemma {:induction false} HandledOne(running: bool, f: seq<byte>)
    requires |f| >= C2H_HDR_LEN
    ensures HandledFrames(CmdHandle(running, f))
         == if running && (Category(f) == RTW89_C2H_CAT_MAC || Category(f) == RTW89_C2H_CAT_OUTSRC)
            then [f] else []
  {
    var acts := CmdHandle(running, f);
    if running {
      var handler :=
        if Category(f) == RTW89_C2H_CAT_MAC then [MacHandle(f, Len(f), Class(f), Func(f))]
        else if Category(f) == RTW89_C2H_CAT_OUTSRC then [PhyHandle(f, Len(f), Class(f), Func(f))]
        else [];
      var dump := if !(Category(f) == RTW89_C2H_CAT_MAC && Func(f) == RTW89_MAC_C2H_FUNC_C2H_LOG)
                  then [HexDump(f)] else [];
      assert acts == handler + dump;
      HandledFramesAppend(handler, dump);
      HandledAtMostOne(handler);
      HandledAtMostOne(dump);
    }
  }

  /** Draining a queue hands exactly its MAC and OUTSRC frames to the
      handlers, one call each, in queue order, and nothing while the device
      is not running. */
  lemma {:induction false} DrainHandlesInOrder(running: bool, q: seq<seq<byte>>)
    requires forall k :: 0 <= k < |q| ==> |q[k]| >= C2H_HDR_LEN
    ensures HandledFrames(DrainLog(running, q)) == Dispatched(running, q)
  {
    if |q| > 0 {
      var f := q[|q| - 1];
      DrainHandlesInOrder(running, q[..|q| - 1]);
      HandledFramesAppend(DrainLog(running, q[..|q| - 1]), CmdHandle(running, f));
      HandledOne(running, f);
    }
  }

  /** Draining the first d+1 frames extends the actions of the first d by
      those of frame d; `log` is whatever was recorded before. */
  lemma {:induction false} DrainStep(running: bool, q: seq<seq<byte>>, d: nat, log: seq<C2hAction>)
    requires forall k :: 0 <= k < |q| ==> |q[k]| >= C2H_HDR_LEN
    requires d < |q|
    ensures log + DrainLog(running, q[..d]) + CmdHandle(running, q[d]) == log + DrainLog(running, q[..d + 1])
  {
    assert q[..d + 1][..d] == q[..d];
  }
}

=== FILE: device.dfy ===
/**
 * The driver's per-device state that fw.c changes (struct rtw89_dev and its
 * struct rtw89_fw_info), and the operations that change it: version capture,
 * H2C header building on the session counter, the firmware download
 * sequence, the C2H queue worker and the register mailbox.
 *
 * The chip is seen through three things: a register file (a map from
 * address to 32-bit value, holding what the chip last showed and what the
 * host last wrote), the log of register accesses the host makes, and the log
 * of frames handed to the transmit path. Register polls read values the chip
 * supplies over time; those values are parameters (see Poll).
 */
module Rtw89 {
  import opened Base
  import opened FwImage
  import opened H2cHeader
  import opened SkBuff
  import opened Segment
  import opened Poll
  import opened C2h
  import opened FwDownload

  const R_AX_HALT_H2C_CTRL: nat := 0x0160
  const R_AX_HALT_C2H_CTRL: nat := 0x0164
  const R_AX_WCPU_FW_CTRL: nat := 0x01E0
  const R_AX_H2CREG_DATA0: nat := 0x8140
  const R_AX_C2HREG_DATA0: nat := 0x8150
  const R_AX_H2CREG_CTRL: nat := 0x8160
  const R_AX_C2HREG_CTRL: nat := 0x8164

  const RTW89_H2CREG_MAX: nat := 4
  const RTW89_C2HREG_MAX: nat := 4
  const B_AX_H2CREG_TRIGGER: nat := 1
  const RTW89_C2HREG_HDR_LEN: nat := 2
  const RTW89_FWCMD_C2HREG_FUNC_NULL: nat := 0xff

  /** The four H2C data registers, 4 bytes apart. */
  function H2cRegData(i: nat): nat
  {
    R_AX_H2CREG_DATA0 + 4 * i
  }

  /** The four C2H data registers, 4 bytes apart. */
  function C2hRegData(i: nat): nat
  {
    R_AX_C2HREG_DATA0 + 4 * i
  }

  // ---------------------------------------------------------------------
  // Register accesses

  datatype RegOp =
    | Read8(addr: nat)
    | Read32(addr: nat)
    | Write8(addr: nat, low: u8)
    | Write32(addr: nat, val: u32)

  /** A register's value; one never written or shown reads as 0. */
  function RegVal(regs: map<nat, u32>, a: nat): u32
  {
    if a in regs then regs[a] else 0
  }

  /** The register file after one access: an 8-bit write replaces the low
      byte only; reads change nothing. */
  function ApplyOp(regs: map<nat, u32>, op: RegOp): (r: map<nat, u32>)
    ensures op.Read8? || op.Read32? ==> r == regs
    ensures op.Write32? ==> RegVal(r, op.addr) == op.val
  {
    match op
    case Write32(a, v) => regs[a := v]
    case Write8(a, v) => regs[a := RegVal(regs, a) - RegVal(regs, a) % 0x100 + v]
    case _ => regs
  }

  /** The register file after a run of accesses, in order. */
  function ApplyOps(regs: map<nat, u32>, ops: seq<RegOp>): map<nat, u32>
  {
    if |ops| == 0 then regs else ApplyOp(ApplyOps(regs, ops[..|ops| - 1]), ops[|ops| - 1])
  }

  lemma {:induction false} ApplyOpsSnoc(regs: map<nat, u32>, ops: seq<RegOp>, op: RegOp)
    ensures ApplyOps(regs, ops + [op]) == ApplyOp(ApplyOps(regs, ops), op)
  {
    assert (ops + [op])[..|ops|] == ops;
  }

  /** The mailbox writes of rtw89_fw_write_h2c_reg: data word i into data
      register i, for the first n words. */
  function MailboxWrites(data: seq<u32>, n: nat): (ops: seq<RegOp>)
    requires n <= |data|
    ensures |ops| == n
    ensures forall i :: 0 <= i < n ==> ops[i] == Write32(H2cRegData(i), data[i])
  {
    seq(n, i requires 0 <= i < n => Write32(H2cRegData(i), data[i]))
  }

  lemma {:induction false} MailboxStep(regs: map<nat, u32>, log: seq<RegOp>, data: seq<u32>, i: nat)
    requires i < |data|
    ensures var op := Write32(H2cRegData(i), data[i]);
      && log + MailboxWrites(data, i) + [op] == log + MailboxWrites(data, i + 1)
      && ApplyOp(ApplyOps(regs, MailboxWrites(data, i)), op) == ApplyOps(regs, MailboxWrites(data, i + 1))
  {
    var op := Write32(H2cRegData(i), data[i]);
    assert MailboxWrites(data, i + 1) == MailboxWrites(data, i) + [op];
    ApplyOpsSnoc(regs, MailboxWrites(data, i), op);
  }

  lemma {:induction false} MailboxTrigger(regs: map<nat, u32>, log: seq<RegOp>, ops: seq<RegOp>)
    ensures var trig := Write8(R_AX_H2CREG_CTRL, B_AX_H2CREG_TRIGGER);
      && log + ops + [trig] == log + (ops + [trig])
      && ApplyOp(ApplyOps(regs, ops), trig) == ApplyOps(regs, ops + [trig])
  {
    ApplyOpsSnoc(regs, ops, Write8(R_AX_H2CREG_CTRL, B_AX_H2CREG_TRIGGER));
  }

  /** The data-register reads of rtw89_fw_read_c2h_reg. */
  function MailboxReads(n: nat): (ops: seq<RegOp>)
    ensures |ops| == n
    ensures forall i :: 0 <= i < n ==> ops[i] == Read32(C2hRegData(i))
  {
    seq(n, i requires 0 <= i < n => Read32(C2hRegData(i)))
  }

  /** What the chip finds after a mailbox write of n words: data register i
      holds word i for i < n, the other data registers are untouched, and
      the control register's low byte holds the trigger. */
  lemma {:induction false} MailboxWriteEffect(regs: map<nat, u32>, data: seq<u32>, n: nat)
    requires n <= |data| && n <= RTW89_H2CREG_MAX
    ensures var r := ApplyOps(regs, MailboxWrites(data, n) + [Write8(R_AX_H2CREG_CTRL, B_AX_H2CREG_TRIGGER)]);
      && (forall i :: 0 <= i < n ==> RegVal(r, H2cRegData(i)) == data[i])
      && (forall i :: n <= i < RTW89_H2CREG_MAX ==> RegVal(r, H2cRegData(i)) == RegVal(regs, H2cRegData(i)))
      && RegVal(r, R_AX_H2CREG_CTRL) % 0x100 == B_AX_H2CREG_TRIGGER
      && (forall a :: a !in {H2cRegData(0), H2cRegData(1), H2cRegData(2), H2cRegData(3), R_AX_H2CREG_CTRL}
            ==> RegVal(r, a) == RegVal(regs, a))
  {
    var trig := Write8(R_AX_H2CREG_CTRL, B_AX_H2CREG_TRIGGER);
    var w := ApplyOps(regs, MailboxWrites(data, n));
    ApplyOpsSnoc(regs, MailboxWrites(data, n), trig);
    MailboxWritesEffect(regs, data, n);
    forall a | a != R_AX_H2CREG_CTRL
      ensures RegVal(ApplyOp(w, trig), a) == RegVal(w, a)
    {
      Write8Elsewhere(w, a, R_AX_H2CREG_CTRL, B_AX_H2CREG_TRIGGER);
    }
    Write8Low(w, R_AX_H2CREG_CTRL, B_AX_H2CREG_TRIGGER);
  }

  lemma Write8Elsewhere(regs: map<nat, u32>, a: nat, b: nat, v: u8)
    requires a != b
    ensures RegVal(ApplyOp(regs, Write8(b, v)), a) == RegVal(regs, a)
  {
  }

  lemma Write8Low(regs: map<nat, u32>, b: nat, v: u8)
    ensures RegVal(ApplyOp(regs, Write8(b, v)), b) % 0x100 == v
  {
    var x := RegVal(regs, b);
    assert x - x % 0x100 + v == 0x100 * (x / 0x100) + v;
  }

  lemma {:induction false} MailboxWritesEffect(regs: map<nat, u32>, data: seq<u32>, n: nat)
    requires n <= |data| && n <= RTW89_H2CREG_MAX
    ensures var r := ApplyOps(regs, MailboxWrites(data, n));
      && (forall i :: 0 <= i < n ==> RegVal(r, H2cRegData(i)) == data[i])
      && (forall a :: (forall i :: 0 <= i < n ==> a != H2cRegData(i)) ==> RegVal(r, a) == RegVal(regs, a))
  {
    if n > 0 {
      MailboxWritesEffect(regs, data, n - 1);
      assert MailboxWrites(data, n) == MailboxWrites(data, n - 1) + [Write32(H2cRegData(n - 1), data[n - 1])];
      ApplyOpsSnoc(regs, MailboxWrites(data, n - 1), Write32(H2cRegData(n - 1), data[n - 1]));
    }
  }

  /** The result of rtw89_fw_read_c2h_reg (struct rtw89_mac_c2h_info): the
      function id, the four words read (empty when none were), and the byte
      offset of the content within them. */
  datatype C2hRegInfo = C2hRegInfo(id: nat, c2hreg: seq<u32>, content: nat)

  // ---------------------------------------------------------------------
  // The device

  class Rtw89Dev {
    var fwVer: FwVersion
    var h2cSeq: u8
    var recSeq: u8
    var fwRdy: bool                   // RTW89_FLAG_FW_RDY
    var running: bool                 // RTW89_FLAG_RUNNING
    var regs: map<nat, u32>
    var regLog: seq<RegOp>
    var txLog: seq<TxPkt>
    ghost var failDumps: nat          // times rtw89_fw_dl_fail_dump ran
    var c2hQueue: seq<seq<byte>>
    var c2hLog: seq<C2hAction>

    /** Every queued C2H frame holds at least its header. */
    predicate Valid()
      reads this
    {
      forall k :: 0 <= k < |c2hQueue| ==> |c2hQueue[k]| >= C2H_HDR_LEN
    }

    constructor(running: bool, regs: map<nat, u32>)
      ensures Valid()
      ensures this.running == running && this.regs == regs
      ensures h2cSeq == 0 && recSeq == 0 && !fwRdy
      ensures regLog == [] && txLog == [] && failDumps == 0 && c2hQueue == [] && c2hLog == []
    {
      fwVer := FwVersion(0, 0, 0, 0, 0, 0, 0, 0, 0, 0);
      h2cSeq := 0;
      recSeq := 0;
      fwRdy := false;
      this.running := running;
      this.regs := regs;
      regLog := [];
      txLog := [];
      failDumps := 0;
      c2hQueue := [];
      c2hLog := [];
    }

    // -------------------------------------------------------------------
    // Register access primitives

    method Read8Reg(a: nat) returns (v: u8)
      modifies this`regLog
      ensures v == RegVal(regs, a) % 0x100
      ensures regLog == old(regLog) + [Read8(a)]
    {
      v := RegVal(regs, a) % 0x100;
      regLog := regLog + [Read8(a)];
    }

    method Read32Reg(a: nat) returns (v: u32)
      modifies this`regLog
      ensures v == RegVal(regs, a)
      ensures regLog == old(regLog) + [Read32(a)]
    {
      v := RegVal(regs, a);
      regLog := regLog + [Read32(a)];
    }

    method Write8Reg(a: nat, v: u8)
      modifies this`regs, this`regLog
      ensures regs == ApplyOp(old(regs), Write8(a, v))
      ensures regLog == old(regLog) + [Write8(a, v)]
    {
      regs := ApplyOp(regs, Write8(a, v));
      regLog := regLog + [Write8(a, v)];
    }

    method Write32Reg(a: nat, v: u32)
      modifies this`regs, this`regLog
      ensures regs == ApplyOp(old(regs), Write32(a, v))
      ensures regLog == old(regLog) + [Write32(a, v)]
    {
      regs := ApplyOp(regs, Write32(a, v));
      regLog := regLog + [Write32(a, v)];
    }

    // -------------------------------------------------------------------
    // Version capture and H2C headers

    /** rtw89_fw_update_ver: records the image's version fields and starts a
        new H2C session, both counters back at 0. */
    method UpdateVer(hdr: seq<byte>)
      requires |hdr| >= FW_HDR_SIZE
      modifies this`fwVer, this`h2cSeq, this`recSeq
      ensures fwVer == VersionOf(hdr)
      ensures h2cSeq == 0 && recSeq == 0
    {
      fwVer := VersionOf(hdr);
      h2cSeq := 0;
      recSeq := 0;
    }

    /** rtw89_h2c_pkt_set_hdr: puts the header built from the current counter
        value in front of the frame, then advances the counter (mod 256). */
    method PktSetHdr(skb: Skb, delType: u8, cat: u8, cls: u8, func: u8,
                     rack: bool, dack: bool, len: u32) returns (r: Skb)
      requires skb.headroom >= H2C_HEADER_LEN
      modifies this`h2cSeq
      ensures r == Push(skb, Encode(SetHdr(old(h2cSeq), delType, cat, cls, func, rack, dack, len)))
      ensures h2cSeq == NextSeq(old(h2cSeq))
    {
      var rack' := rack;
      if h2cSeq % 4 == 0 {
        rack' := true;
      }
      var h := H2cHdr(delType, cat % 4, cls % 0x40, func, h2cSeq,
                      ((len + H2C_HEADER_LEN) % 0x1_0000_0000) % 0x4000, rack', dack);
      r := Push(skb, Encode(h));
      h2cSeq := (h2cSeq + 1) % 0x100;
    }

    /** rtw89_h2c_pkt_set_hdr_fwdl: the same header without acknowledgement
        bits; the counter is read but not advanced (the method may not
        change any field). */
    method PktSetHdrFwdl(skb: Skb, delType: u8, cat: u8, cls: u8, func: u8, len: u32) returns (r: Skb)
      requires skb.headroom >= H2C_HEADER_LEN
      ensures r == Push(skb, Encode(SetHdrFwdl(h2cSeq, delType, cat, cls, func, len)))
    {
      var h := H2cHdr(delType, cat % 4, cls % 0x40, func, h2cSeq,
                      ((len + H2C_HEADER_LEN) % 0x1_0000_0000) % 0x4000, false, false);
      r := Push(skb, Encode(h));
    }

    /**
     * The shape every H2C command builder shares (rtw89_fw_h2c_cam and its
     * siblings): allocate a buffer with header room, fill the payload, put
     * the header on, transmit. An allocation failure returns -ENOMEM before
     * the counter moves; a transmit failure returns -EBUSY after it moved.
     * `allocOk` and `txRet` are the outcomes of the allocation and of
     * rtw89_h2c_tx.
     */
    method H2cCmd(cat: u8, cls: u8, func: u8, rack: bool, dack: bool, payload: seq<byte>,
                  allocOk: bool, txRet: int) returns (ret: int)
      requires |payload| < 0x1_0000_0000
      modifies this`h2cSeq, this`txLog
      ensures !allocOk ==> ret == -ENOMEM && h2cSeq == old(h2cSeq) && txLog == old(txLog)
      ensures allocOk ==> h2cSeq == NextSeq(old(h2cSeq))
      ensures allocOk && txRet == 0 ==>
        && ret == 0
        && txLog == old(txLog) + [TxPkt(false, Encode(SetHdr(old(h2cSeq), FWCMD_TYPE_H2C, cat, cls, func,
                                                                 rack, dack, |payload|)) + payload)]
      ensures allocOk && txRet != 0 ==> ret == -EBUSY && txLog == old(txLog)
    {
      if !allocOk {
        return -ENOMEM;
      }
      var skb := AllocSkb(true);
      skb := PutData(skb, payload);
      assert skb.data == payload;
      skb := PktSetHdr(skb, FWCMD_TYPE_H2C, cat, cls, func, rack, dack, |payload|);
      assert skb.data == Encode(SetHdr(old(h2cSeq), FWCMD_TYPE_H2C, cat, cls, func, rack, dack, |payload|)) + payload;
      if txRet != 0 {
        return -EBUSY;
      }
      txLog := txLog + [TxPkt(false, skb.data)];
      ret := 0;
    }

    // -------------------------------------------------------------------
    // Firmware download

    /** rtw89_fw_check_rdy: polls the download status until the firmware
        reports ready; sets FW_RDY only then. */
    method CheckRdy(rdy: seq<u32>) returns (ret: int)
      requires |rdy| > 0
      modifies this`fwRdy
      ensures ret == CheckRdyRet(rdy)
      ensures fwRdy == (old(fwRdy) || ret == 0)
    {
      var r, val := ReadPollTimeout(Statuses(rdy), IsInitRdy);
      if r != 0 {
        if val == RTW89_FWDL_CHECKSUM_FAIL {
          return -EINVAL;
        } else if val == RTW89_FWDL_SECURITY_FAIL {
          return -EINVAL;
        } else if val == RTW89_FWDL_CUT_NOT_MATCH {
          return -EINVAL;
        } else {
          return -EBUSY;
        }
      }
      fwRdy := true;
      ret := 0;
    }

    /** __rtw89_fw_download_hdr and rtw89_fw_download_hdr: send the headers
        in one frame, wait for the FWDL path, then clear both halt
        registers. The counter is not advanced. */
    method DownloadHdr(hdr: seq<byte>, e: Env) returns (ret: int)
      requires ValidEnv(e) && |hdr| < 0x1_0000_0000
      modifies this`txLog, this`regs, this`regLog
      ensures ret == HdrPhaseRet(e)
      ensures txLog == old(txLog) + (if HdrSendRet(e) == 0 then [HdrPkt(h2cSeq, hdr)] else [])
      ensures var halt := [Write32(R_AX_HALT_H2C_CTRL, 0), Write32(R_AX_HALT_C2H_CTRL, 0)];
        && regLog == old(regLog) + (if ret == 0 then halt else [])
        && regs == (if ret == 0 then ApplyOps(old(regs), halt) else old(regs))
    {
      if !e.hdrAllocOk {
        return -ENOMEM;
      }
      var skb := AllocSkb(true);
      skb := PutData(skb, hdr);
      assert skb.data == hdr;
      skb := PktSetHdrFwdl(skb, FWCMD_TYPE_H2C, H2C_CAT_MAC, H2C_CL_MAC_FWDL,
                           H2C_FUNC_MAC_FWHDR_DL, |hdr|);
      assert TxPkt(false, skb.data) == HdrPkt(h2cSeq, hdr);
      if e.hdrTx != 0 {
        return -1;
      }
      txLog := txLog + [TxPkt(false, skb.data)];
      var r, val := ReadPollTimeout(e.fwdlPath, FwdlPathRdy);
      if r != 0 {
        return r;
      }
      Write32Reg(R_AX_HALT_H2C_CTRL, 0);
      Write32Reg(R_AX_HALT_C2H_CTRL, 0);
      ApplyOpsSnoc(old(regs), [Write32(R_AX_HALT_H2C_CTRL, 0)], Write32(R_AX_HALT_C2H_CTRL, 0));
      assert ApplyOps(old(regs), []) == old(regs);
      assert [Write32(R_AX_HALT_H2C_CTRL, 0)] == [] + [Write32(R_AX_HALT_H2C_CTRL, 0)];
      ApplyOpsSnoc(old(regs), [], Write32(R_AX_HALT_H2C_CTRL, 0));
      ret := 0;
    }

    /** __rtw89_fw_download_main: one section's bytes, cut into packets of
        at most 2020 bytes sent in order; the first packet that cannot be
        allocated (-ENOMEM) or sent (-1) ends the section. `k0` is the
        session-wide index of the section's first packet; `sent` counts the
        packets that went out. */
    method DownloadSection(section: seq<byte>, fate: nat -> ChunkFate, k0: nat)
      returns (ret: int, sent: nat)
      modifies this`txLog
      ensures var cs := Chunks(section, FWDL_SECTION_PER_PKT_LEN);
        && sent == FirstFail(fate, k0, |cs|)
        && (sent == |cs| ==> ret == 0)
        && (sent < |cs| ==> ret == FateCode(fate(k0 + sent)) && ret != 0)
        && txLog == old(txLog) + FwdlPkts(cs[..sent])
    {
      ghost var cs := Chunks(section, FWDL_SECTION_PER_PKT_LEN);
      var off: nat := 0;
      var residue: nat := |section|;
      sent := 0;
      while residue > 0
        invariant off + residue == |section| && sent <= |cs|
        invariant cs[sent..] == Chunks(section[off..], FWDL_SECTION_PER_PKT_LEN)
        invariant AllSent(fate, k0, sent)
        invariant txLog == old(txLog) + FwdlPkts(cs[..sent])
        decreases residue
      {
        var pktLen := if residue >= FWDL_SECTION_PER_PKT_LEN then FWDL_SECTION_PER_PKT_LEN else residue;
        SectionStep(cs, sent, section, off, pktLen);
        var r := SendChunk(section[off .. off + pktLen], fate(k0 + sent));
        if r != 0 {
          FirstFailIs(fate, k0, |cs|, sent);
          return r, sent;
        }
        FwdlPktsSnoc(cs, sent, old(txLog));
        off := off + pktLen;
        residue := residue - pktLen;
        sent := sent + 1;
      }
      assert section[off..] == [];
      assert |cs| == sent;
      assert cs[..sent] == cs;
      FirstFailIs(fate, k0, |cs|, sent);
      ret := 0;
    }

    /** One pass of the packet loop of __rtw89_fw_download_main: allocate a
        buffer for the chunk (-ENOMEM if that fails), copy the chunk in and
        transmit it (-1 if that fails). Only a sent chunk reaches the log. */
    method SendChunk(chunk: seq<byte>, f: ChunkFate) returns (ret: int)
      modifies this`txLog
      ensures ret == FateCode(f)
      ensures f == Sent ==> txLog == old(txLog) + [TxPkt(true, chunk)]
      ensures f != Sent ==> txLog == old(txLog)
    {
      if f == AllocFail {
        return -ENOMEM;
      }
      var skb := PutData(AllocSkb(false), chunk);
      assert skb.data == chunk;
      if f == TxFail {
        return -1;
      }
      txLog := txLog + [TxPkt(true, skb.data)];
      ret := 0;
    }

    /** rtw89_fw_download_main: the sections in header order, stopping at
        the first failure, then the ready check. */
    method DownloadMain(img: seq<byte>, secs: seq<SectionInfo>, fate: nat -> ChunkFate, rdy: seq<u32>)
      returns (ret: int)
      requires SectionsFit(img, secs) && |rdy| > 0
      modifies this`txLog, this`fwRdy
      ensures ret == MainPhaseRet(img, secs, fate, rdy)
      ensures txLog == old(txLog) + FwdlPkts(MainPhaseSent(img, secs, fate))
      ensures fwRdy == (old(fwRdy) || ret == 0)
    {
      var s := 0;
      var k := 0;
      while s < |secs|
        invariant 0 <= s <= |secs|
        invariant SectionsFit(img, secs[..s])
        invariant k == |AllChunks(img, secs[..s])| && AllSent(fate, 0, k)
        invariant txLog == old(txLog) + FwdlPkts(AllChunks(img, secs[..s]))
        invariant fwRdy == old(fwRdy)
      {
        var r, sent := DownloadSection(Payload(img, secs[s]), fate, k);
        if r != 0 {
          MainStepFails(img, secs, s, fate, rdy, k, SectionChunks(img, secs[s]), sent, old(txLog));
          return r;
        }
        MainStepOk(img, secs, s, fate, k, old(txLog));
        s := s + 1;
        k := k + sent;
      }
      MainAllSent(img, secs, fate, rdy, k);
      ret := CheckRdy(rdy);
    }

    /** rtw89_fw_download: parse (writing the part size into the image),
        capture the version and reset the counters, wait for the H2C path,
        send the headers, send the sections and check ready. Any failure
        runs the fail dump once (counted; its register accesses are not
        modelled); a header- or main-phase failure is reported as -EBUSY. */
    method Download(fw: array<byte>, e: Env) returns (ret: int)
      requires ValidEnv(e) && fw.Length < 0x1_0000_0000
      modifies fw, this`fwVer, this`h2cSeq, this`recSeq, this`fwRdy, this`txLog,
               this`regs, this`regLog, this`failDumps
      ensures ret == DownloadRet(old(fw[..]), e)
      ensures failDumps == old(failDumps) + (if ret != 0 then 1 else 0)
      ensures fwRdy == (old(fwRdy) || ret == 0)
      ensures txLog == old(txLog) + DownloadTx(old(fw[..]), e)
      ensures fw[..] == if fw.Length >= FW_HDR_SIZE then Patched(old(fw[..])) else old(fw[..])
      ensures Parse(old(fw[..])).Parsed? ==>
        fwVer == VersionOf(old(fw[..])) && h2cSeq == 0 && recSeq == 0
      ensures Parse(old(fw[..])).ParseError? ==>
        fwVer == old(fwVer) && h2cSeq == old(h2cSeq) && recSeq == old(recSeq)
      ensures var halt := [Write32(R_AX_HALT_H2C_CTRL, 0), Write32(R_AX_HALT_C2H_CTRL, 0)];
        var halted := Parse(old(fw[..])).Parsed? && PollSpec(e.h2cPath, H2cPathRdy).ok
                       && HdrPhaseRet(e) == 0;
        && regLog == old(regLog) + (if halted then halt else [])
        && regs == (if halted then ApplyOps(old(regs), halt) else old(regs))
    {
      ghost var img0 := fw[..];
      var pr := HdrParser(fw);
      if pr.ParseError? {
        failDumps := failDumps + 1;
        return pr.code;
      }
      var img := fw[..];
      UpdateVer(img);
      ret := DownloadStages(img0, img, pr.info, e);
      if ret != 0 {
        failDumps := failDumps + 1;
      }
    }

    /** The steps of rtw89_fw_download after a successful parse and version
        capture: H2C path wait, header phase, main phase. */
    method DownloadStages(ghost img0: seq<byte>, img: seq<byte>, info: BinInfo, e: Env) returns (ret: int)
      requires ValidEnv(e) && Parse(img0).Parsed? && info == Parse(img0).info
      requires |img0| >= FW_HDR_SIZE && img == Patched(img0) && h2cSeq == 0
      modifies this`fwRdy, this`txLog, this`regs, this`regLog
      ensures ret == DownloadRet(img0, e)
      ensures fwRdy == (old(fwRdy) || ret == 0)
      ensures txLog == old(txLog) + DownloadTx(img0, e)
      ensures var halt := [Write32(R_AX_HALT_H2C_CTRL, 0), Write32(R_AX_HALT_C2H_CTRL, 0)];
        var halted := PollSpec(e.h2cPath, H2cPathRdy).ok && HdrPhaseRet(e) == 0;
        && regLog == old(regLog) + (if halted then halt else [])
        && regs == (if halted then ApplyOps(old(regs), halt) else old(regs))
    {
      DownloadParsed(img0, e);
      var r, val := ReadPollTimeout(e.h2cPath, H2cPathRdy);
      if r != 0 {
        assert txLog == txLog + DownloadTx(img0, e);
        return r;
      }
      ret := DownloadPhases(img, info, e);
    }

    /** The header phase then the main phase; a failure of either is
        reported as -EBUSY. */
    method DownloadPhases(img: seq<byte>, info: BinInfo, e: Env) returns (ret: int)
      requires ValidEnv(e) && SectionsFit(img, info.sections)
      requires info.hdrLen <= |img| && info.hdrLen < 0x1_0000_0000 && h2cSeq == 0
      modifies this`fwRdy, this`txLog, this`regs, this`regLog
      ensures ret == PhasesRet(img, info, e)
      ensures fwRdy == (old(fwRdy) || ret == 0)
      ensures txLog == old(txLog) + PhasesTx(img, info, e)
      ensures var halt := [Write32(R_AX_HALT_H2C_CTRL, 0), Write32(R_AX_HALT_C2H_CTRL, 0)];
        && regLog == old(regLog) + (if HdrPhaseRet(e) == 0 then halt else [])
        && regs == (if HdrPhaseRet(e) == 0 then ApplyOps(old(regs), halt) else old(regs))
    {
      ghost var log0 := txLog;
      var r := DownloadHdr(img[..info.hdrLen], e);
      if r != 0 {
        return -EBUSY;
      }
      r := DownloadMain(img, info.sections, e.fate, e.rdy);
      PhasesSent(img, info, e, log0);
      if r != 0 {
        return -EBUSY;
      }
      ret := 0;
    }

    // -------------------------------------------------------------------
    // C2H events

    /** rtw89_fw_c2h_irqsafe: a frame from the chip joins the queue (the
        work item it schedules is C2hWork). */
    method C2hIrqsafe(frame: seq<byte>)
      requires Valid() && |frame| >= C2H_HDR_LEN
      modifies this`c2hQueue
      ensures Valid()
      ensures c2hQueue == old(c2hQueue) + [frame]
    {
      c2hQueue := c2hQueue + [frame];
    }

    /** rtw89_fw_c2h_work: takes the frames off the queue front first and
        handles each in turn; afterwards the queue is empty and the action
        log has grown by the actions of every frame, in queue order. */
    method C2hWork()
      requires Valid()
      modifies this`c2hQueue, this`c2hLog
      ensures Valid()
      ensures c2hQueue == []
      ensures c2hLog == old(c2hLog) + DrainLog(running, old(c2hQueue))
    {
      ghost var q0 := c2hQueue;
      ghost var done := 0;
      while |c2hQueue| > 0
        invariant forall k :: 0 <= k < |q0| ==> |q0[k]| >= C2H_HDR_LEN
        invariant done <= |q0| && c2hQueue == q0[done..]
        invariant c2hLog == old(c2hLog) + DrainLog(running, q0[..done])
        decreases |c2hQueue|
      {
        var skb := c2hQueue[0];
        c2hQueue := c2hQueue[1..];
        assert skb == q0[done];
        c2hLog := c2hLog + CmdHandle(running, skb);
        DrainStep(running, q0, done, old(c2hLog));
        done := done + 1;
      }
      assert q0[..done] == q0;
    }

    // -------------------------------------------------------------------
    // Register mailbox

    /**
     * rtw89_fw_write_h2c_reg: waits for the chip to clear the H2C control
     * register (`idle` are the values that poll reads), writes the first
     * min(h2c_len, 4) words into the data registers in order, sets the
     * trigger, then waits for the chip's answer in the C2H control register
     * (`ack` are the values that poll reads). Nothing is written when the
     * first wait times out.
     */
    method WriteH2cReg(data: seq<u32>, h2cLen: u8, idle: seq<u32>, ack: seq<u32>) returns (ret: int)
      requires |data| >= Min(h2cLen, RTW89_H2CREG_MAX) && |idle| > 0 && |ack| > 0
      modifies this`regs, this`regLog
      ensures !PollSpec(idle, IsZero8).ok ==>
        ret == -ETIMEDOUT && regs == old(regs) && regLog == old(regLog)
      ensures PollSpec(idle, IsZero8).ok ==>
        var ops := MailboxWrites(data, Min(h2cLen, RTW89_H2CREG_MAX))
                   + [Write8(R_AX_H2CREG_CTRL, B_AX_H2CREG_TRIGGER)];
        && regLog == old(regLog) + ops
        && regs == ApplyOps(old(regs), ops)
        && ret == PollRet(PollSpec(ack, IsNonZero8))
    {
      var r, val := ReadPollTimeout(idle, IsZero8);
      if r != 0 {
        return r;
      }
      WriteMailbox(data, h2cLen);
      ret, val := ReadPollTimeout(ack, IsNonZero8);
    }

    /** The register writes of rtw89_fw_write_h2c_reg once the mailbox is
        idle: the first min(h2cLen, 4) words into the data registers, then
        the trigger into the control register's low byte. */
    method WriteMailbox(data: seq<u32>, h2cLen: u8)
      requires |data| >= Min(h2cLen, RTW89_H2CREG_MAX)
      modifies this`regs, this`regLog
      ensures var ops := MailboxWrites(data, Min(h2cLen, RTW89_H2CREG_MAX))
                         + [Write8(R_AX_H2CREG_CTRL, B_AX_H2CREG_TRIGGER)];
        && regLog == old(regLog) + ops
        && regs == ApplyOps(old(regs), ops)
    {
      var n := Min(h2cLen, RTW89_H2CREG_MAX);
      var i := 0;
      while i < h2cLen && i < RTW89_H2CREG_MAX
        invariant 0 <= i <= n
        invariant regLog == old(regLog) + MailboxWrites(data, i)
        invariant regs == ApplyOps(old(regs), MailboxWrites(data, i))
      {
        Write32Reg(H2cRegData(i), data[i]);
        MailboxStep(old(regs), old(regLog), data, i);
        i := i + 1;
      }
      Write8Reg(R_AX_H2CREG_CTRL, B_AX_H2CREG_TRIGGER);
      MailboxTrigger(old(regs), old(regLog), MailboxWrites(data, n));
    }

    /**
     * rtw89_fw_read_c2h_reg: with the C2H control register at 0 the chip
     * has sent nothing, and the result is -EINVAL with the null function id
     * after a single read. Otherwise all four data registers are read in
     * order, the control register is cleared, and the id is the function
     * field (bits 6:0) of the first word; the content follows the 2-byte
     * header.
     */
    method ReadC2hReg() returns (ret: int, info: C2hRegInfo)
      modifies this`regs, this`regLog
      ensures RegVal(old(regs), R_AX_C2HREG_CTRL) % 0x100 == 0 ==>
        && ret == -EINVAL && info.id == RTW89_FWCMD_C2HREG_FUNC_NULL && info.c2hreg == []
        && regLog == old(regLog) + [Read8(R_AX_C2HREG_CTRL)] && regs == old(regs)
      ensures RegVal(old(regs), R_AX_C2HREG_CTRL) % 0x100 != 0 ==>
        var ops := [Read8(R_AX_C2HREG_CTRL)] + MailboxReads(RTW89_C2HREG_MAX) + [Write8(R_AX_C2HREG_CTRL, 0)];
        && ret == 0
        && info.c2hreg == seq(RTW89_C2HREG_MAX, i requires 0 <= i < RTW89_C2HREG_MAX => RegVal(old(regs), C2hRegData(i)))
        && info.id == info.c2hreg[0] % 0x80
        && info.content == RTW89_C2HREG_HDR_LEN
        && regLog == old(regLog) + ops
        && regs == ApplyOp(old(regs), Write8(R_AX_C2HREG_CTRL, 0))
    {
      info := C2hRegInfo(RTW89_FWCMD_C2HREG_FUNC_NULL, [], 0);
      var ctrl := Read8Reg(R_AX_C2HREG_CTRL);
      if ctrl == 0 {
        return -EINVAL, info;
      }
      ghost var log1 := regLog;
      var words: seq<u32> := [];
      for i := 0 to RTW89_C2HREG_MAX
        invariant |words| == i
        invariant forall t :: 0 <= t < i ==> words[t] == RegVal(old(regs), C2hRegData(t))
        invariant regLog == log1 + MailboxReads(i)
        invariant regs == old(regs)
      {
        var w := Read32Reg(C2hRegData(i));
        words := words + [w];
        assert MailboxReads(i + 1) == MailboxReads(i) + [Read32(C2hRegData(i))];
      }
      Write8Reg(R_AX_C2HREG_CTRL, 0);
      info := C2hRegInfo(words[0] % 0x80, words, RTW89_C2HREG_HDR_LEN);
      ret := 0;
    }
  }

  /** A parsed image keeps its parse and its version once patched, and its
      sections lie inside it. */
  lemma {:induction false} DownloadParsed(img0: seq<byte>, e: Env)
    requires ValidEnv(e) && Parse(img0).Parsed?
    ensures |img0| >= FW_HDR_SIZE
    ensures SectionsFit(Patched(img0), Parse(img0).info.sections)
    ensures Parse(img0).info.hdrLen <= |img0| && Parse(img0).info.hdrLen < 0x1_0000_0000
  {
    PatchedParse(img0);
    ParseLayout(img0);
  }

  /** The trace once the header phase has succeeded: the header packet with
      sequence number 0, then the packets the main phase sent. */
  lemma {:induction false} PhasesSent(img: seq<byte>, info: BinInfo, e: Env, log: seq<TxPkt>)
    requires ValidEnv(e) && SectionsFit(img, info.sections)
    requires info.hdrLen <= |img| && info.hdrLen < 0x1_0000_0000
    requires HdrPhaseRet(e) == 0
    ensures log + [HdrPkt(0, img[..info.hdrLen])] + FwdlPkts(MainPhaseSent(img, info.sections, e.fate))
         == log + PhasesTx(img, info, e)
  {
    HdrPhaseOutcome(e);
  }


  /** The first wait of the mailbox write: the control byte reads 0. */
  predicate IsZero8(v: u32)
  {
    v % 0x100 == 0
  }

  /** The answer wait: the control byte reads non-zero. */
  predicate IsNonZero8(v: u32)
  {
    v % 0x100 != 0
  }

  /** One step of the section loop: the next packet is the next chunk of
      what is left. */
  lemma {:induction false} SectionStep(cs: seq<seq<byte>>, sent: nat, payload: seq<byte>, off: nat, pktLen: nat)
    requires sent <= |cs| && off < |payload|
    requires pktLen == Min(|payload| - off, FWDL_SECTION_PER_PKT_LEN)
    requires cs[sent..] == Chunks(payload[off..], FWDL_SECTION_PER_PKT_LEN)
    ensures sent < |cs| && cs[sent] == payload[off .. off + pktLen]
    ensures cs[sent + 1..] == Chunks(payload[off + pktLen..], FWDL_SECTION_PER_PKT_LEN)
  {
    assert payload[off..][..pktLen] == payload[off .. off + pktLen];
    assert payload[off..][pktLen..] == payload[off + pktLen..];
    assert cs[sent..][0] == cs[sent];
    assert cs[sent..][1..] == cs[sent + 1..];
  }

  lemma {:induction false} FwdlPktsSnoc(cs: seq<seq<byte>>, n: nat, log: seq<TxPkt>)
    requires n < |cs|
    ensures log + FwdlPkts(cs[..n]) + [TxPkt(true, cs[n])] == log + FwdlPkts(cs[..n + 1])
  {
    assert cs[..n + 1] == cs[..n] + [cs[n]];
  }

  lemma {:induction false} FwdlPktsAppend(a: seq<seq<byte>>, b: seq<seq<byte>>)
    ensures FwdlPkts(a + b) == FwdlPkts(a) + FwdlPkts(b)
  {
  }

  /** A section whose packets all go out extends what was sent by exactly
      its packets. */
  lemma {:induction false} MainStepOk(img: seq<byte>, secs: seq<SectionInfo>, s: nat,
                                      fate: nat -> ChunkFate, k: nat, log: seq<TxPkt>)
    requires SectionsFit(img, secs) && s < |secs|
    requires SectionsFit(img, secs[..s])
    requires k == |AllChunks(img, secs[..s])| && AllSent(fate, 0, k)
    requires FirstFail(fate, k, |SectionChunks(img, secs[s])|) == |SectionChunks(img, secs[s])|
    ensures SectionsFit(img, secs[..s + 1])
    ensures var cs := SectionChunks(img, secs[s]);
      && k + |cs| == |AllChunks(img, secs[..s + 1])| && AllSent(fate, 0, k + |cs|)
      && log + FwdlPkts(AllChunks(img, secs[..s])) + FwdlPkts(cs) == log + FwdlPkts(AllChunks(img, secs[..s + 1]))
  {
    var cs := SectionChunks(img, secs[s]);
    AllChunksStep(img, secs, s);
    FirstFailMeaning(fate, k, |cs|);
    FwdlPktsAppend(AllChunks(img, secs[..s]), cs);
  }

  /** A section that fails at its j-th packet is the first failure of the
      whole download: the phase returns that packet's code and has sent
      everything before it. */
  lemma {:induction false} MainStepFails(img: seq<byte>, secs: seq<SectionInfo>, s: nat,
                                         fate: nat -> ChunkFate, rdy: seq<u32>, k: nat,
                                         cs: seq<seq<byte>>, j: nat, log: seq<TxPkt>)
    requires SectionsFit(img, secs) && s < |secs| && |rdy| > 0
    requires SectionsFit(img, secs[..s])
    requires k == |AllChunks(img, secs[..s])| && AllSent(fate, 0, k)
    requires cs == SectionChunks(img, secs[s])
    requires j == FirstFail(fate, k, |cs|) && j < |cs|
    ensures MainPhaseRet(img, secs, fate, rdy) == FateCode(fate(k + j))
    ensures log + FwdlPkts(AllChunks(img, secs[..s])) + FwdlPkts(cs[..j])
         == log + FwdlPkts(MainPhaseSent(img, secs, fate))
  {
    var all := AllChunks(img, secs);
    AllChunksStep(img, secs, s);
    AllChunksPrefix(img, secs, s + 1);
    FirstFailMeaning(fate, k, |cs|);
    var pre := AllChunks(img, secs[..s + 1]);
    assert pre == AllChunks(img, secs[..s]) + cs;
    assert all[..|pre|] == pre;
    assert AllSent(fate, 0, k + j) by {
      forall t | 0 <= t < k + j
        ensures fate(t) == Sent
      {
        if t >= k {
          assert k <= t < k + j;
        }
      }
    }
    FirstFailIs(fate, 0, |all|, k + j);
    assert all[..k + j] == pre[..k + j];
    assert pre[..k + j] == AllChunks(img, secs[..s]) + cs[..j];
    FwdlPktsAppend(AllChunks(img, secs[..s]), cs[..j]);
    assert MainPhaseSent(img, secs, fate) == AllChunks(img, secs[..s]) + cs[..j];
  }

  /** When every section went out, the phase sent every packet and its
      result is the ready check's. */
  lemma {:induction false} MainAllSent(img: seq<byte>, secs: seq<SectionInfo>,
                                       fate: nat -> ChunkFate, rdy: seq<u32>, k: nat)
    requires SectionsFit(img, secs) && |rdy| > 0
    requires SectionsFit(img, secs[..|secs|])
    requires k == |AllChunks(img, secs[..|secs|])| && AllSent(fate, 0, k)
    ensures MainPhaseSent(img, secs, fate) == AllChunks(img, secs[..|secs|])
    ensures MainPhaseRet(img, secs, fate, rdy) == CheckRdyRet(rdy)
  {
    assert secs[..|secs|] == secs;
    var all := AllChunks(img, secs);
    FirstFailIs(fate, 0, |all|, |all|);
    assert all[..|all|] == all;
  }
}

=== FILE: download.dfy ===
/**
 * What a firmware download does, as values: the packets it sends, the order
 * it sends them in, and the return code each phase yields. The chip's side
 * (register polls, buffer allocation, the transmit path) is an environment
 * given in advance: the values each poll would read, and the fate of each
 * packet. The device class in Rtw89 runs the download step by step and is
 * proved to produce exactly what these functions say.
 */
module FwDownload {
  import opened Base
  import opened FwImage
  import opened Segment
  import opened Poll
  import opened H2cHeader

  const RTW89_FWDL_CHECKSUM_FAIL: nat := 2
  const RTW89_FWDL_SECURITY_FAIL: nat := 3
  const RTW89_FWDL_CUT_NOT_MATCH: nat := 4
  const RTW89_FWDL_WCPU_FW_INIT_RDY: nat := 7

  // Bits of the low byte of R_AX_WCPU_FW_CTRL.
  const B_AX_H2C_PATH_RDY: nat := 2      // BIT(1)
  const B_AX_FWDL_PATH_RDY: nat := 4     // BIT(2)

  // ---------------------------------------------------------------------
  // The ready check

  /** _fw_get_rdy: bits 7:5 of the control register's low byte. */
  function FwdlStatus(reg: u32): (s: u32)
    ensures s < 8
  {
    (reg % 0x100) / 0x20
  }

  function Statuses(regs: seq<u32>): (st: seq<u32>)
    ensures |st| == |regs|
    ensures forall i :: 0 <= i < |regs| ==> st[i] == FwdlStatus(regs[i])
  {
    seq(|regs|, i requires 0 <= i < |regs| => FwdlStatus(regs[i]))
  }

  predicate IsInitRdy(s: u32)
  {
    s == RTW89_FWDL_WCPU_FW_INIT_RDY
  }

  /** val & B_AX_H2C_PATH_RDY on the byte read. */
  predicate H2cPathRdy(reg: u32)
  {
    ((reg % 0x100) / 2) % 2 == 1
  }

  /** val & B_AX_FWDL_PATH_RDY on the byte read. */
  predicate FwdlPathRdy(reg: u32)
  {
    ((reg % 0x100) / 4) % 2 == 1
  }

  /** The status classification of rtw89_fw_check_rdy. */
  function RdyCode(p: PollResult): (r: int)
    ensures r == 0 <==> p.ok
    ensures r == 0 || r == -EINVAL || r == -EBUSY
  {
    if p.ok then 0
    else if p.val == RTW89_FWDL_CHECKSUM_FAIL || p.val == RTW89_FWDL_SECURITY_FAIL
         || p.val == RTW89_FWDL_CUT_NOT_MATCH then -EINVAL
    else -EBUSY
  }

  /** The return code of rtw89_fw_check_rdy when the control register shows
      `rdy` in turn. */
  function CheckRdyRet(rdy: seq<u32>): (r: int)
    requires |rdy| > 0
    ensures r == 0 || r == -EINVAL || r == -EBUSY
  {
    RdyCode(PollSpec(Statuses(rdy), IsInitRdy))
  }

  /**
   * The ready check succeeds exactly when some read shows WCPU_FW_INIT_RDY.
   * Otherwise it is a hard failure (-EINVAL) when the last status read is a
   * checksum, security or cut mismatch, and -EBUSY for any other status.
   */
  lemma {:induction false} CheckRdyOutcome(rdy: seq<u32>)
    requires |rdy| > 0
    ensures CheckRdyRet(rdy) == 0 <==>
      exists i :: 0 <= i < |rdy| && FwdlStatus(rdy[i]) == RTW89_FWDL_WCPU_FW_INIT_RDY
    ensures CheckRdyRet(rdy) == -EINVAL <==>
      && (forall i :: 0 <= i < |rdy| ==> FwdlStatus(rdy[i]) != RTW89_FWDL_WCPU_FW_INIT_RDY)
      && FwdlStatus(rdy[|rdy| - 1]) in {RTW89_FWDL_CHECKSUM_FAIL, RTW89_FWDL_SECURITY_FAIL,
                                        RTW89_FWDL_CUT_NOT_MATCH}
    ensures CheckRdyRet(rdy) in {0, -EINVAL, -EBUSY}
  {
    var st := Statuses(rdy);
    PollSpecMeaning(st, IsInitRdy);
    if PollSpec(st, IsInitRdy).ok {
      var i :| 0 <= i < |st| && IsInitRdy(st[i]);
      assert FwdlStatus(rdy[i]) == RTW89_FWDL_WCPU_FW_INIT_RDY;
    } else {
      forall i | 0 <= i < |rdy|
        ensures FwdlStatus(rdy[i]) != RTW89_FWDL_WCPU_FW_INIT_RDY
      {
        assert !IsInitRdy(st[i]);
      }
    }
  }

  // ---------------------------------------------------------------------
  // Packets and their fates

  /** A frame handed to the transmit path; `fwdl` is its download flag. */
  datatype TxPkt = TxPkt(fwdl: bool, data: seq<byte>)

  /** What becomes of the k-th download packet of a session. */
  datatype ChunkFate = Sent | AllocFail | TxFail

  function FateCode(f: ChunkFate): (r: int)
    ensures r == 0 <==> f == Sent
    ensures f == AllocFail ==> r == -ENOMEM
    ensures f == TxFail ==> r == -1
  {
    match f
    case Sent => 0
    case AllocFail => -ENOMEM
    case TxFail => -1
  }

  /** The index, counted from k, of the first of n packets that is not sent
      (n when all are). */
  function FirstFail(fate: nat -> ChunkFate, k: nat, n: nat): (j: nat)
    ensures j <= n
    decreases n
  {
    if n == 0 then 0
    else if fate(k) != Sent then 0
    else 1 + FirstFail(fate, k + 1, n - 1)
  }

  predicate AllSent(fate: nat -> ChunkFate, k: nat, m: nat)
  {
    forall t :: k <= t < k + m ==> fate(t) == Sent
  }

  lemma {:induction false} FirstFailMeaning(fate: nat -> ChunkFate, k: nat, n: nat)
    ensures AllSent(fate, k, FirstFail(fate, k, n))
    ensures FirstFail(fate, k, n) < n ==> fate(k + FirstFail(fate, k, n)) != Sent
    decreases n
  {
    if n > 0 && fate(k) == Sent {
      FirstFailMeaning(fate, k + 1, n - 1);
    }
  }

  /** The first failure is unique: any m with all packets before it sent and
      the m-th failing (or m == n) is it. */
  lemma {:induction false} FirstFailIs(fate: nat -> ChunkFate, k: nat, n: nat, m: nat)
    requires m <= n && AllSent(fate, k, m)
    requires m < n ==> fate(k + m) != Sent
    ensures FirstFail(fate, k, n) == m
    decreases n
  {
    if m > 0 {
      assert fate(k) == Sent;
      FirstFailIs(fate, k + 1, n - 1, m - 1);
    }
  }

  function FwdlPkts(cs: seq<seq<byte>>): (p: seq<TxPkt>)
    ensures |p| == |cs|
    ensures forall i :: 0 <= i < |cs| ==> p[i] == TxPkt(true, cs[i])
  {
    seq(|cs|, i requires 0 <= i < |cs| => TxPkt(true, cs[i]))
  }

  /** The header packet: the image's headers behind a download-phase H2C
      header (class FWDL, function FWHDR_DL, no acknowledgement). */
  function HdrPkt(seqNo: u8, hdr: seq<byte>): TxPkt
    requires |hdr| < 0x1_0000_0000
  {
    TxPkt(false, Encode(SetHdrFwdl(seqNo, FWCMD_TYPE_H2C, H2C_CAT_MAC, H2C_CL_MAC_FWDL,
                                   H2C_FUNC_MAC_FWHDR_DL, |hdr|)) + hdr)
  }

  // ---------------------------------------------------------------------
  // Section payloads and their packets

  predicate SectionsFit(img: seq<byte>, secs: seq<SectionInfo>)
  {
    forall k :: 0 <= k < |secs| ==> secs[k].addr + secs[k].len <= |img|
  }

  function Payload(img: seq<byte>, s: SectionInfo): seq<byte>
    requires s.addr + s.len <= |img|
  {
    img[s.addr .. s.addr + s.len]
  }

  /** The packets of one section. */
  function SectionChunks(img: seq<byte>, s: SectionInfo): seq<seq<byte>>
    requires s.addr + s.len <= |img|
  {
    Chunks(Payload(img, s), FWDL_SECTION_PER_PKT_LEN)
  }

  /** The packets of all sections, section after section. */
  function AllChunks(img: seq<byte>, secs: seq<SectionInfo>): seq<seq<byte>>
    requires SectionsFit(img, secs)
  {
    if |secs| == 0 then []
    else AllChunks(img, secs[..|secs| - 1]) + SectionChunks(img, secs[|secs| - 1])
  }

  lemma {:induction false} AllChunksStep(img: seq<byte>, secs: seq<SectionInfo>, s: nat)
    requires SectionsFit(img, secs) && s < |secs|
    ensures SectionsFit(img, secs[..s]) && SectionsFit(img, secs[..s + 1])
    ensures AllChunks(img, secs[..s + 1]) == AllChunks(img, secs[..s]) + SectionChunks(img, secs[s])
  {
    assert secs[..s + 1][..s] == secs[..s];
  }

  /** The packets of the first a sections come first. */
  lemma {:induction false} AllChunksPrefix(img: seq<byte>, secs: seq<SectionInfo>, a: nat)
    requires SectionsFit(img, secs) && a <= |secs|
    ensures SectionsFit(img, secs[..a])
    ensures |AllChunks(img, secs[..a])| <= |AllChunks(img, secs)|
    ensures AllChunks(img, secs)[..|AllChunks(img, secs[..a])|] == AllChunks(img, secs[..a])
    decreases |secs| - a
  {
    if a == |secs| {
      assert secs[..a] == secs;
    } else {
      AllChunksPrefix(img, secs, a + 1);
      AllChunksStep(img, secs, a);
    }
  }

  /** The packets sent before the first failure. */
  function MainPhaseSent(img: seq<byte>, secs: seq<SectionInfo>, fate: nat -> ChunkFate): seq<seq<byte>>
    requires SectionsFit(img, secs)
  {
    var all := AllChunks(img, secs);
    all[..FirstFail(fate, 0, |all|)]
  }

  /** rtw89_fw_download_main's return code: the first failing packet's code,
      else the ready check's. */
  function MainPhaseRet(img: seq<byte>, secs: seq<SectionInfo>, fate: nat -> ChunkFate,
                        rdy: seq<u32>): (r: int)
    requires SectionsFit(img, secs) && |rdy| > 0
    ensures r == 0 || r == -ENOMEM || r == -1 || r == -EINVAL || r == -EBUSY
  {
    var all := AllChunks(img, secs);
    var j := FirstFail(fate, 0, |all|);
    if j < |all| then FateCode(fate(j)) else CheckRdyRet(rdy)
  }

  // ---------------------------------------------------------------------
  // Parsed images: the sections fit and their packets rebuild the image

  lemma {:induction false} SumLenPrefix(t: seq<SectionInfo>, k: nat)
    requires k < |t|
    ensures SumLen(t[..k + 1]) == SumLen(t[..k]) + t[k].len
    ensures SumLen(t[..k + 1]) <= SumLen(t)
    decreases |t| - k
  {
    assert t[..k + 1][..k] == t[..k];
    if k + 1 < |t| {
      SumLenPrefix(t, k + 1);
    } else {
      assert t[..k + 1] == t;
    }
  }

  lemma {:induction false} ParsedSectionsFit(fw: seq<byte>)
    requires Parse(fw).Parsed?
    ensures SectionsFit(fw, Parse(fw).info.sections)
  {
    var info := Parse(fw).info;
    ParseLayout(fw);
    forall k | 0 <= k < |info.sections|
      ensures info.sections[k].addr + info.sections[k].len <= |fw|
    {
      assert info.sections[k].addr == PayloadStart(info, k);
      SumLenPrefix(info.sections, k);
    }
  }

  /** Appending the packets of a section that starts where the previous
      ones end extends the rebuilt range by that section's bytes. */
  lemma {:induction false} TileStep(fw: seq<byte>, pre: seq<seq<byte>>, s: SectionInfo, h: nat)
    requires h <= s.addr && s.addr + s.len <= |fw|
    requires Flatten(pre) == fw[h .. s.addr]
    ensures Flatten(pre + SectionChunks(fw, s)) == fw[h .. s.addr + s.len]
  {
    FlattenAppend(pre, SectionChunks(fw, s));
    ChunksFlatten(Payload(fw, s), FWDL_SECTION_PER_PKT_LEN);
    assert fw[h .. s.addr] + fw[s.addr .. s.addr + s.len] == fw[h .. s.addr + s.len];
  }

  lemma {:induction false} PayloadStartStep(info: BinInfo, k: nat)
    requires k < |info.sections|
    ensures PayloadStart(info, k + 1) == PayloadStart(info, k) + info.sections[k].len
    ensures PayloadStart(info, k + 1) <= info.hdrLen + SumLen(info.sections)
  {
    SumLenPrefix(info.sections, k);
  }

  /** Payloads laid out back to back from the header length: the packets of
      the first k sections rebuild the image from the header length up to
      where payload k starts. */
  lemma {:induction false} PayloadsTile(fw: seq<byte>, info: BinInfo, k: nat)
    requires SectionsFit(fw, info.sections)
    requires forall i {:trigger PayloadStart(info, i)} :: 0 <= i < |info.sections| ==>
      info.sections[i].addr == PayloadStart(info, i)
    requires info.hdrLen + SumLen(info.sections) == |fw|
    requires k <= |info.sections|
    ensures SectionsFit(fw, info.sections[..k])
    ensures PayloadStart(info, k) <= |fw|
    ensures Flatten(AllChunks(fw, info.sections[..k])) == fw[info.hdrLen .. PayloadStart(info, k)]
  {
    if k == 0 {
      assert info.sections[..0] == [];
    } else {
      PayloadsTile(fw, info, k - 1);
      TileNext(fw, info, k - 1);
    }
  }

  lemma {:induction false} TileNext(fw: seq<byte>, info: BinInfo, k: nat)
    requires SectionsFit(fw, info.sections) && k < |info.sections|
    requires info.sections[k].addr == PayloadStart(info, k)
    requires info.hdrLen + SumLen(info.sections) == |fw|
    requires SectionsFit(fw, info.sections[..k])
    requires Flatten(AllChunks(fw, info.sections[..k])) == fw[info.hdrLen .. PayloadStart(info, k)]
    ensures SectionsFit(fw, info.sections[..k + 1])
    ensures PayloadStart(info, k + 1) <= |fw|
    ensures Flatten(AllChunks(fw, info.sections[..k + 1])) == fw[info.hdrLen .. PayloadStart(info, k + 1)]
  {
    var t := info.sections;
    PayloadStartStep(info, k);
    TileStep(fw, AllChunks(fw, t[..k]), t[k], info.hdrLen);
    AllChunksStep(fw, t, k);
  }

  /** The download packets of a parsed image, laid end to end, are exactly
      the image after its headers: every payload byte is sent once, in order,
      and no header byte is sent as payload. */
  lemma {:induction false} PacketsRebuildImage(fw: seq<byte>)
    requires Parse(fw).Parsed?
    ensures SectionsFit(fw, Parse(fw).info.sections)
    ensures Flatten(AllChunks(fw, Parse(fw).info.sections)) == fw[Parse(fw).info.hdrLen..]
  {
    var info := Parse(fw).info;
    var t := info.sections;
    ParseLayout(fw);
    ParsedSectionsFit(fw);
    forall i | 0 <= i < |t|
      ensures t[i].addr == PayloadStart(info, i)
    {
      assert t[i] == SectionAt(fw, i, PayloadStart(info, i));
    }
    PayloadsTile(fw, info, |t|);
    assert t[..|t|] == t;
  }

  // ---------------------------------------------------------------------
  // The whole download

  /** The environment of one download: the control-register values each poll
      reads, the header packet's allocation and transmit outcome, and the
      fate of each section packet. */
  datatype Env = Env(
    h2cPath: seq<u32>,
    hdrAllocOk: bool,
    hdrTx: int,
    fwdlPath: seq<u32>,
    fate: nat -> ChunkFate,
    rdy: seq<u32>)

  predicate ValidEnv(e: Env)
  {
    |e.h2cPath| > 0 && |e.fwdlPath| > 0 && |e.rdy| > 0
  }

  /** __rtw89_fw_download_hdr's return code. */
  function HdrSendRet(e: Env): int
  {
    if !e.hdrAllocOk then -ENOMEM
    else if e.hdrTx != 0 then -1
    else 0
  }

  /** rtw89_fw_download_hdr's return code: the send, then the FWDL path. */
  function HdrPhaseRet(e: Env): (r: int)
    requires ValidEnv(e)
    ensures r == 0 || r == -ENOMEM || r == -1 || r == -ETIMEDOUT
  {
    if HdrSendRet(e) != 0 then HdrSendRet(e)
    else PollRet(PollSpec(e.fwdlPath, FwdlPathRdy))
  }

  /** The image the sections are read from: the part size written in. */
  function Patched(img0: seq<byte>): seq<byte>
    requires |img0| >= FW_HDR_SIZE
  {
    SetPartSize(img0, FWDL_SECTION_PER_PKT_LEN)
  }

  lemma {:induction false} PatchedParse(img0: seq<byte>)
    requires Parse(img0).Parsed?
    ensures |img0| >= FW_HDR_SIZE
    ensures Parse(Patched(img0)) == Parse(img0)
    ensures SectionsFit(Patched(img0), Parse(img0).info.sections)
  {
    ParseLayout(img0);
    PartSizeKeepsParse(img0, FWDL_SECTION_PER_PKT_LEN);
    ParsedSectionsFit(Patched(img0));
  }

  /** rtw89_fw_download's return code for an image and an environment. */
  function DownloadRet(img0: seq<byte>, e: Env): (r: int)
    requires ValidEnv(e)
    ensures r == 0 || r == -EINVAL || r == -ETIMEDOUT || r == -EBUSY
  {
    match Parse(img0)
    case ParseError(c) => c
    case Parsed(info) =>
      PatchedParse(img0);
      if !PollSpec(e.h2cPath, H2cPathRdy).ok then -ETIMEDOUT
      else PhasesRet(Patched(img0), info, e)
  }

  /** The packets rtw89_fw_download hands to the transmit path. The header
      packet carries sequence number 0, the counter having just been reset. */
  function DownloadTx(img0: seq<byte>, e: Env): (t: seq<TxPkt>)
    requires ValidEnv(e)
    ensures t != [] ==> !t[0].fwdl && forall i :: 1 <= i < |t| ==> t[i].fwdl
  {
    match Parse(img0)
    case ParseError(_) => []
    case Parsed(info) =>
      PatchedParse(img0);
      if !PollSpec(e.h2cPath, H2cPathRdy).ok then []
      else PhasesTx(Patched(img0), info, e)
  }

  /** What rtw89_fw_download does once the H2C path is ready and `img` is
      the patched image: either phase failing is reported as -EBUSY. */
  function PhasesRet(img: seq<byte>, info: BinInfo, e: Env): (r: int)
    requires ValidEnv(e) && SectionsFit(img, info.sections)
    ensures r == 0 || r == -EBUSY
  {
    if HdrPhaseRet(e) != 0 then -EBUSY
    else if MainPhaseRet(img, info.sections, e.fate, e.rdy) != 0 then -EBUSY
    else 0
  }

  /** The packets sent in those two phases: the header packet if it went
      out, then the section packets if the FWDL path came up. */
  function PhasesTx(img: seq<byte>, info: BinInfo, e: Env): (t: seq<TxPkt>)
    requires ValidEnv(e) && SectionsFit(img, info.sections)
    requires info.hdrLen <= |img| && info.hdrLen < 0x1_0000_0000
    ensures t != [] ==> !t[0].fwdl && forall i :: 1 <= i < |t| ==> t[i].fwdl
  {
    if HdrSendRet(e) != 0 then []
    else
      [HdrPkt(0, img[..info.hdrLen])]
        + (if HdrPhaseRet(e) != 0 then [] else FwdlPkts(MainPhaseSent(img, info.sections, e.fate)))
  }

  /** The header phase succeeds exactly when the header packet is allocated
      and sent and some read shows the FWDL path ready. */
  lemma {:induction false} HdrPhaseOutcome(e: Env)
    requires ValidEnv(e)
    ensures HdrPhaseRet(e) == 0 <==>
      e.hdrAllocOk && e.hdrTx == 0 && exists i :: 0 <= i < |e.fwdlPath| && FwdlPathRdy(e.fwdlPath[i])
  {
    PollSpecMeaning(e.fwdlPath, FwdlPathRdy);
  }

  /** The main phase succeeds exactly when every section packet is sent and
      some status read shows the firmware ready. */
  lemma {:induction false} MainPhaseOutcome(img: seq<byte>, secs: seq<SectionInfo>,
                                            fate: nat -> ChunkFate, rdy: seq<u32>)
    requires SectionsFit(img, secs) && |rdy| > 0
    ensures MainPhaseRet(img, secs, fate, rdy) == 0 <==>
      && AllSent(fate, 0, |AllChunks(img, secs)|)
      && exists i :: 0 <= i < |rdy| && FwdlStatus(rdy[i]) == RTW89_FWDL_WCPU_FW_INIT_RDY
  {
    var all := AllChunks(img, secs);
    FirstFailMeaning(fate, 0, |all|);
    CheckRdyOutcome(rdy);
    if AllSent(fate, 0, |all|) {
      FirstFailIs(fate, 0, |all|, |all|);
    }
  }

  /**
   * The error mapping of rtw89_fw_download: only a parse failure yields
   * -EINVAL, and the download succeeds exactly when every phase does and
   * some status read shows the firmware ready. When -ETIMEDOUT and -EBUSY
   * occur is stated by `DownloadFailureCodes`.
   */
  lemma {:induction false} DownloadErrorMapping(img0: seq<byte>, e: Env)
    requires ValidEnv(e)
    ensures DownloadRet(img0, e) in {0, -EINVAL, -ETIMEDOUT, -EBUSY}
    ensures DownloadRet(img0, e) == -EINVAL <==> Parse(img0).ParseError?
    ensures DownloadRet(img0, e) == 0 <==>
      && Parse(img0).Parsed?
      && (exists i :: 0 <= i < |e.h2cPath| && H2cPathRdy(e.h2cPath[i]))
      && e.hdrAllocOk && e.hdrTx == 0
      && (exists i :: 0 <= i < |e.fwdlPath| && FwdlPathRdy(e.fwdlPath[i]))
      && (PatchedParse(img0);
          AllSent(e.fate, 0, |AllChunks(Patched(img0), Parse(img0).info.sections)|))
      && (exists i :: 0 <= i < |e.rdy| && FwdlStatus(e.rdy[i]) == RTW89_FWDL_WCPU_FW_INIT_RDY)
  {
    var r := Parse(img0);
    if r.Parsed? {
      PatchedParse(img0);
      PollSpecMeaning(e.h2cPath, H2cPathRdy);
      HdrPhaseOutcome(e);
      MainPhaseOutcome(Patched(img0), r.info.sections, e.fate, e.rdy);
    }
  }

  /** The other two failure codes of rtw89_fw_download: -ETIMEDOUT exactly
      when the image parses and the H2C path never shows ready; -EBUSY exactly
      when the H2C path came up and the header or the main phase failed
      (the ready check's -EINVAL included). */
  lemma {:induction false} DownloadFailureCodes(img0: seq<byte>, e: Env)
    requires ValidEnv(e)
    ensures DownloadRet(img0, e) == -ETIMEDOUT <==>
      Parse(img0).Parsed? && forall i :: 0 <= i < |e.h2cPath| ==> !H2cPathRdy(e.h2cPath[i])
    ensures DownloadRet(img0, e) == -EBUSY <==>
      && Parse(img0).Parsed?
      && (exists i :: 0 <= i < |e.h2cPath| && H2cPathRdy(e.h2cPath[i]))
      && (PatchedParse(img0);
          HdrPhaseRet(e) != 0
          || MainPhaseRet(Patched(img0), Parse(img0).info.sections, e.fate, e.rdy) != 0)
  {
    if Parse(img0).Parsed? {
      PatchedParse(img0);
      PollSpecMeaning(e.h2cPath, H2cPathRdy);
    }
  }

  /** The header packet on the wire: sequence number as given, neither
      acknowledgement bit, length field 8 + header length, then the image's
      headers, whose part-size field it thus delivers. */
  lemma {:induction false} HdrPktOnWire(seqNo: u8, hdr: seq<byte>)
    requires FW_HDR_SIZE <= |hdr| < 0x1_0000_0000
    ensures var d := HdrPkt(seqNo, hdr).data;
      && !HdrPkt(seqNo, hdr).fwdl
      && |d| == H2C_HEADER_LEN + |hdr| && d[H2C_HEADER_LEN..] == hdr
      && Decode(d).sn == seqNo && !Decode(d).recAck && !Decode(d).doneAck
      && Decode(d).totalLen == (|hdr| + H2C_HEADER_LEN) % 0x4000
      && Decode(d).cat == H2C_CAT_MAC && Decode(d).cls == H2C_CL_MAC_FWDL
      && Decode(d).func == H2C_FUNC_MAC_FWHDR_DL
      && Le16(d, H2C_HEADER_LEN + PART_SIZE_OFF) == Le16(hdr, PART_SIZE_OFF)
  {
    var d := HdrPkt(seqNo, hdr).data;
    SetHdrFwdlOnWire(seqNo, FWCMD_TYPE_H2C, H2C_CAT_MAC, H2C_CL_MAC_FWDL, H2C_FUNC_MAC_FWHDR_DL, |hdr|, hdr);
    DecodeEncode(SetHdrFwdl(seqNo, FWCMD_TYPE_H2C, H2C_CAT_MAC, H2C_CL_MAC_FWDL, H2C_FUNC_MAC_FWHDR_DL, |hdr|), hdr);
    assert d[H2C_HEADER_LEN + PART_SIZE_OFF] == hdr[PART_SIZE_OFF];
    assert d[H2C_HEADER_LEN + PART_SIZE_OFF + 1] == hdr[PART_SIZE_OFF + 1];
  }

  /**
   * A successful download sends the header packet (sequence number 0, the
   * image's headers with the per-packet size written in) and then the
   * section packets, each of 1 to 2020 bytes, which laid end to end are the
   * whole image after its headers.
   */
  lemma {:induction false} DownloadSendsImage(img0: seq<byte>, e: Env)
    requires ValidEnv(e) && DownloadRet(img0, e) == 0
    ensures Parse(img0).Parsed? && |img0| >= FW_HDR_SIZE
    ensures SectionsFit(Patched(img0), Parse(img0).info.sections)
    ensures var info := Parse(img0).info;
      var all := AllChunks(Patched(img0), info.sections);
      && DownloadTx(img0, e) == [HdrPkt(0, Patched(img0)[..info.hdrLen])] + FwdlPkts(all)
      && Flatten(all) == img0[info.hdrLen..]
      && (forall i :: 0 <= i < |all| ==> 0 < |all[i]| <= FWDL_SECTION_PER_PKT_LEN)
      && Le16(Patched(img0)[..info.hdrLen], PART_SIZE_OFF) == FWDL_SECTION_PER_PKT_LEN
  {
    DownloadOkSent(img0, e);
    var info := Parse(img0).info;
    var img := Patched(img0);
    PacketsRebuildImage(img);
    ChunkBounds(img, info.sections);
    assert img[info.hdrLen..] == img0[info.hdrLen..];
  }

  lemma {:induction false} DownloadOkSent(img0: seq<byte>, e: Env)
    requires ValidEnv(e) && DownloadRet(img0, e) == 0
    ensures Parse(img0).Parsed? && |img0| >= FW_HDR_SIZE
    ensures Parse(Patched(img0)) == Parse(img0)
    ensures SectionsFit(Patched(img0), Parse(img0).info.sections)
    ensures var info := Parse(img0).info;
      var all := AllChunks(Patched(img0), info.sections);
      DownloadTx(img0, e) == [HdrPkt(0, Patched(img0)[..info.hdrLen])] + FwdlPkts(all)
  {
    var info := Parse(img0).info;
    PatchedParse(img0);
    PhasesOk(Patched(img0), info, e);
  }

  /** Once both phases succeed, every section packet has gone out. */
  lemma {:induction false} PhasesOk(img: seq<byte>, info: BinInfo, e: Env)
    requires ValidEnv(e) && SectionsFit(img, info.sections)
    requires info.hdrLen <= |img| && info.hdrLen < 0x1_0000_0000
    requires PhasesRet(img, info, e) == 0
    ensures PhasesTx(img, info, e) == [HdrPkt(0, img[..info.hdrLen])] + FwdlPkts(AllChunks(img, info.sections))
  {
    var all := AllChunks(img, info.sections);
    FirstFailMeaning(e.fate, 0, |all|);
    assert FirstFail(e.fate, 0, |all|) == |all|;
    assert all[..|all|] == all;
  }

  /** Every download packet holds between 1 and 2020 bytes. */
  lemma {:induction false} ChunkBounds(img: seq<byte>, secs: seq<SectionInfo>)
    requires SectionsFit(img, secs)
    ensures forall i :: 0 <= i < |AllChunks(img, secs)| ==>
      0 < |AllChunks(img, secs)[i]| <= FWDL_SECTION_PER_PKT_LEN
  {
    if |secs| > 0 {
      var pre := secs[..|secs| - 1];
      ChunkBounds(img, pre);
      var cs := SectionChunks(img, secs[|secs| - 1]);
      ChunkSizes(Payload(img, secs[|secs| - 1]));
      var all := AllChunks(img, secs);
      assert all == AllChunks(img, pre) + cs;
      forall i | 0 <= i < |all|
        ensures 0 < |all[i]| <= FWDL_SECTION_PER_PKT_LEN
      {
        if i >= |AllChunks(img, pre)| {
          assert all[i] == cs[i - |AllChunks(img, pre)|];
        }
      }
    }
  }
}

=== FILE: fw_image.dfy ===
/**
 * The firmware image container: a fixed 32-byte header, one 16-byte header
 * per section, then the section payloads back to back in header order.
 * `Parse` is the specification of `rtw89_fw_hdr_parser`; `HdrParser` is the
 * parser itself, walking the header and payload cursors over the image array.
 */
module FwImage {
  import opened Base

  const FW_HDR_SIZE: nat := 32
  const FW_SECTION_HDR_SIZE: nat := 16
  const FWDL_SECTION_CHKSUM_LEN: nat := 8
  const FWDL_SECTION_PER_PKT_LEN: nat := 2020

  // Byte positions inside the fixed header.
  const SEC_NUM_OFF: nat := 25        // word 6, bits 15:8
  const PART_SIZE_OFF: nat := 28      // word 7, bits 15:0

  /** One row of the section table (struct rtw89_fw_hdr_section_info). */
  datatype SectionInfo = SectionInfo(
    len: nat,       // payload length, checksum trailer included
    redl: bool,     // redownload flag
    dladdr: nat,    // download address, top 3 bits cleared
    addr: nat)      // offset of the payload inside the image

  /** The parsed container (struct rtw89_fw_bin_info). */
  datatype BinInfo = BinInfo(sectionNum: nat, hdrLen: nat, sections: seq<SectionInfo>)

  datatype ParseResult = Parsed(info: BinInfo) | ParseError(code: int)

  /** GET_FW_HDR_SEC_NUM */
  function SecNum(fw: seq<byte>): (n: nat)
    requires |fw| >= FW_HDR_SIZE
    ensures n < 256
  {
    fw[SEC_NUM_OFF] as nat
  }

  function HdrLen(n: nat): nat
  {
    FW_HDR_SIZE + 16 * n    // RTW89_FW_HDR_SIZE + n * RTW89_FW_SECTION_HDR_SIZE
  }

  /** Byte offset of the i-th section header. */
  function SectionHdrOff(i: nat): nat
  {
    FW_HDR_SIZE + 16 * i
  }

  /** The version fields rtw89_fw_update_ver records (struct rtw89_fw_info);
      the 32-bit year word is stored in a 16-bit field. */
  datatype FwVersion = FwVersion(
    major: u8, minor: u8, sub: u8, subIdx: u8,
    year: u16, mon: u16, date: u16, hour: u16, min: u16,
    cmdVer: u8)

  /** The low 16 bits of a little-endian word are its first two bytes. */
  lemma Le32Low(s: seq<byte>, off: nat)
    requires off + 4 <= |s|
    ensures Le32(s, off) % 0x1_0000 == Le16(s, off)
  {
    var hi := s[off + 2] + 0x100 * (s[off + 3] as int);
    assert Le32(s, off) == Le16(s, off) + 0x1_0000 * hi;
  }

  /** GET_FW_HDR_MAJOR_VERSION .. GET_FW_HDR_CMD_VERSERION: header words 1
      (version bytes), 4 (month, date, hour, minute), 5 (year) and the top
      byte of word 7 (command version). */
  function VersionOf(hdr: seq<byte>): (v: FwVersion)
    requires |hdr| >= FW_HDR_SIZE
    ensures v.year == Le16(hdr, 20)
  {
    Le32Low(hdr, 20);
    FwVersion(hdr[4], hdr[5], hdr[6], hdr[7],
              Le32(hdr, 20) % 0x1_0000, hdr[16], hdr[17], hdr[18], hdr[19],
              hdr[31])
  }

  /** SET_FW_HDR_PART_SIZE: the low 16 bits of header word 7 become `size`;
      the rest of the image, the version fields included (the command version
      shares word 7), is left as it was. */
  function SetPartSize(fw: seq<byte>, size: u16): (r: seq<byte>)
    requires |fw| >= FW_HDR_SIZE
    ensures |r| == |fw| && Le16(r, PART_SIZE_OFF) == size
    ensures forall j :: 0 <= j < |fw| && j != PART_SIZE_OFF && j != PART_SIZE_OFF + 1 ==> r[j] == fw[j]
    ensures VersionOf(r) == VersionOf(fw)
  {
    fw[PART_SIZE_OFF := size % 0x100][PART_SIZE_OFF + 1 := size / 0x100]
  }

  // The fields of a section header (GET_FWSECTION_HDR_*), read from its
  // first two little-endian words.

  /** Word 0, bits 28:0: the download address with its top 3 bits cleared. */
  function SecDlAddr(fw: seq<byte>, i: nat): (a: nat)
    requires SectionHdrOff(i) + 8 <= |fw|
    ensures a < 0x2000_0000
  {
    var off := SectionHdrOff(i);
    fw[off] + 0x100 * (fw[off + 1] as int) + 0x1_0000 * (fw[off + 2] as int) + 0x100_0000 * (fw[off + 3] as int % 0x20)
  }

  /** Word 0, all 32 bits: the raw download address. */
  function SecRawDlAddr(fw: seq<byte>, i: nat): u32
    requires SectionHdrOff(i) + 8 <= |fw|
  {
    Le32(fw, SectionHdrOff(i))
  }

  /** Word 1, bits 23:0: the declared payload size. */
  function SecSize(fw: seq<byte>, i: nat): (n: nat)
    requires SectionHdrOff(i) + 8 <= |fw|
    ensures n < 0x100_0000
  {
    var off := SectionHdrOff(i) + 4;
    fw[off] + 0x100 * (fw[off + 1] as int) + 0x1_0000 * (fw[off + 2] as int)
  }

  /** Word 1, bit 28: a checksum trailer follows the payload. */
  function SecChecksum(fw: seq<byte>, i: nat): bool
    requires SectionHdrOff(i) + 8 <= |fw|
  {
    (fw[SectionHdrOff(i) + 7] / 0x10) % 2 == 1
  }

  /** Word 1, bit 29: the redownload flag. */
  function SecRedl(fw: seq<byte>, i: nat): bool
    requires SectionHdrOff(i) + 8 <= |fw|
  {
    (fw[SectionHdrOff(i) + 7] / 0x20) % 2 == 1
  }

  /** The address field keeps the low 29 bits of the raw word and no more. */
  lemma {:induction false} DlAddrIsMasked(fw: seq<byte>, i: nat)
    requires SectionHdrOff(i) + 8 <= |fw|
    ensures SecDlAddr(fw, i) == SecRawDlAddr(fw, i) % 0x2000_0000
  {
    var off := SectionHdrOff(i);
    var low := fw[off] + 0x100 * (fw[off + 1] as int) + 0x1_0000 * (fw[off + 2] as int);
    var b3: int := fw[off + 3];
    assert SecRawDlAddr(fw, i) == low + 0x100_0000 * (b3 % 0x20) + 0x2000_0000 * (b3 / 0x20);
  }

  /** The table row built from section header i, whose payload starts at `addr`. */
  function SectionAt(fw: seq<byte>, i: nat, addr: nat): (s: SectionInfo)
    requires SectionHdrOff(i) + 8 <= |fw|
    ensures s.len == SecSize(fw, i) + (if SecChecksum(fw, i) then FWDL_SECTION_CHKSUM_LEN else 0)
    ensures s.dladdr < 0x2000_0000
    ensures s.addr == addr
  {
    var chk := if SecChecksum(fw, i) then FWDL_SECTION_CHKSUM_LEN else 0;
    SectionInfo(SecSize(fw, i) + chk, SecRedl(fw, i), SecDlAddr(fw, i), addr)
  }

  /** Where payload i starts: after the header and the payloads before it. */
  function PayloadStart(info: BinInfo, i: nat): nat
    requires i <= |info.sections|
  {
    info.hdrLen + SumLen(info.sections[..i])
  }

  /** Total payload length of a run of sections. */
  function SumLen(t: seq<SectionInfo>): nat
  {
    if t == [] then 0 else SumLen(t[..|t| - 1]) + t[|t| - 1].len
  }

  /** The first k rows of the section table, payloads laid out from `hdrLen`. */
  function Table(fw: seq<byte>, k: nat, hdrLen: nat): (t: seq<SectionInfo>)
    requires HdrLen(k) <= |fw|
    ensures |t| == k
  {
    if k == 0 then []
    else
      var prev := Table(fw, k - 1, hdrLen);
      prev + [SectionAt(fw, k - 1, hdrLen + SumLen(prev))]
  }

  /**
   * The parse, with the truncation checks the parser needs (see the
   * as-written variant `ParseAsWritten` below): an image that does not even
   * hold its own headers is rejected with -EINVAL before they are read.
   */
  function Parse(fw: seq<byte>): (r: ParseResult)
    ensures r.ParseError? ==> r.code == -EINVAL
    ensures r.Parsed? ==> FW_HDR_SIZE <= r.info.hdrLen <= |fw|
  {
    if |fw| < FW_HDR_SIZE then ParseError(-EINVAL)
    else
      var n := SecNum(fw);
      var hdrLen := HdrLen(n);
      if |fw| < hdrLen then ParseError(-EINVAL)
      else
        var t := Table(fw, n, hdrLen);
        if hdrLen + SumLen(t) != |fw| then ParseError(-EINVAL)
        else Parsed(BinInfo(n, hdrLen, t))
  }

  // ---------------------------------------------------------------------
  // Lemmas about the layout

  lemma {:induction false} SumLenAppend(t: seq<SectionInfo>, s: SectionInfo)
    ensures SumLen(t + [s]) == SumLen(t) + s.len
  {
    assert (t + [s])[..|t + [s]| - 1] == t;
  }

  lemma {:induction false} TablePrefix(fw: seq<byte>, k: nat, hdrLen: nat, i: nat)
    requires HdrLen(k) <= |fw| && i <= k
    ensures Table(fw, k, hdrLen)[..i] == Table(fw, i, hdrLen)
  {
    if i < k {
      TablePrefix(fw, k - 1, hdrLen, i);
      assert Table(fw, k, hdrLen)[..k - 1] == Table(fw, k - 1, hdrLen);
    }
  }

  /** Row i of the table is section header i, its payload starting right
      after the payloads of rows 0..i-1. */
  lemma {:induction false} TableRow(fw: seq<byte>, k: nat, hdrLen: nat, i: nat)
    requires HdrLen(k) <= |fw| && i < k
    ensures Table(fw, k, hdrLen)[i] == SectionAt(fw, i, hdrLen + SumLen(Table(fw, i, hdrLen)))
  {
    var tk, ti := Table(fw, k, hdrLen), Table(fw, i, hdrLen);
    var row := SectionAt(fw, i, hdrLen + SumLen(ti));
    TablePrefix(fw, k, hdrLen, i + 1);
    assert Table(fw, i + 1, hdrLen) == ti + [row];
    assert tk[i] == tk[..i + 1][i] == (ti + [row])[i] == row;
  }

  /** A byte-identical section header gives an identical row. */
  lemma {:induction false} SectionAtFrame(a: seq<byte>, b: seq<byte>, i: nat, addr: nat)
    requires SectionHdrOff(i) + 8 <= |a| && SectionHdrOff(i) + 8 <= |b|
    requires forall j :: SectionHdrOff(i) <= j < SectionHdrOff(i) + 8 ==> a[j] == b[j]
    ensures SectionAt(a, i, addr) == SectionAt(b, i, addr)
  {
    var off := SectionHdrOff(i);
    assert a[off] == b[off] && a[off + 1] == b[off + 1] && a[off + 2] == b[off + 2] && a[off + 3] == b[off + 3];
    assert a[off + 4] == b[off + 4] && a[off + 5] == b[off + 5] && a[off + 6] == b[off + 6] && a[off + 7] == b[off + 7];
  }

  /** The table reads nothing but the section headers. */
  lemma {:induction false} TableFrame(a: seq<byte>, b: seq<byte>, k: nat, hdrLen: nat)
    requires HdrLen(k) <= |a| && HdrLen(k) <= |b|
    requires forall j :: FW_HDR_SIZE <= j < HdrLen(k) ==> a[j] == b[j]
    ensures Table(a, k, hdrLen) == Table(b, k, hdrLen)
  {
    if k > 0 {
      TableFrame(a, b, k - 1, hdrLen);
      var prev := Table(a, k - 1, hdrLen);
      SectionAtFrame(a, b, k - 1, hdrLen + SumLen(prev));
    }
  }

  /** What a successful parse returns, spelled out. */
  lemma {:induction false} TableRows(fw: seq<byte>, info: BinInfo)
    requires HdrLen(info.sectionNum) <= |fw|
    requires info.sections == Table(fw, info.sectionNum, info.hdrLen)
    ensures forall i {:trigger PayloadStart(info, i)} :: 0 <= i < info.sectionNum ==>
      info.sections[i] == SectionAt(fw, i, PayloadStart(info, i))
  {
    forall i | 0 <= i < info.sectionNum
      ensures info.sections[i] == SectionAt(fw, i, PayloadStart(info, i))
    {
      TableRow(fw, info.sectionNum, info.hdrLen, i);
      TablePrefix(fw, info.sectionNum, info.hdrLen, i);
    }
  }

  lemma {:induction false} ParsedInfo(fw: seq<byte>)
    requires Parse(fw).Parsed?
    ensures |fw| >= FW_HDR_SIZE && HdrLen(SecNum(fw)) <= |fw|
    ensures Parse(fw).info == BinInfo(SecNum(fw), HdrLen(SecNum(fw)), Table(fw, SecNum(fw), HdrLen(SecNum(fw))))
    ensures HdrLen(SecNum(fw)) + SumLen(Parse(fw).info.sections) == |fw|
  {
  }

  /**
   * Parser layout: the header length is 32 + 16 * section count, section i's
   * payload starts at the header length plus the lengths of sections 0..i-1,
   * the rows come from the section headers in order, and the last payload
   * ends exactly at the end of the image.
   */
  lemma {:induction false} ParseLayout(fw: seq<byte>)
    requires Parse(fw).Parsed?
    ensures var info := Parse(fw).info;
      && |fw| >= FW_HDR_SIZE
      && info.sectionNum == SecNum(fw)
      && info.hdrLen == FW_HDR_SIZE + info.sectionNum * 16
      && |info.sections| == info.sectionNum
      && info.hdrLen + SumLen(info.sections) == |fw|
      && (forall i {:trigger PayloadStart(info, i)} :: 0 <= i < info.sectionNum ==>
            info.sections[i] == SectionAt(fw, i, PayloadStart(info, i)))
  {
    ParsedInfo(fw);
    TableRows(fw, Parse(fw).info);
  }

  /** Consecutive rows are adjacent: row i+1 starts where row i ends. */
  lemma {:induction false} TableStep(fw: seq<byte>, k: nat, hdrLen: nat, i: nat)
    requires HdrLen(k) <= |fw| && i + 1 < k
    ensures Table(fw, k, hdrLen)[i + 1].addr == Table(fw, k, hdrLen)[i].addr + Table(fw, k, hdrLen)[i].len
  {
    TableRow(fw, k, hdrLen, i);
    TableRow(fw, k, hdrLen, i + 1);
    var ti := Table(fw, i, hdrLen);
    var row := SectionAt(fw, i, hdrLen + SumLen(ti));
    assert Table(fw, i + 1, hdrLen) == ti + [row];
    SumLenAppend(ti, row);
  }

  /** The last row ends where the whole run of payloads ends. */
  lemma {:induction false} TableEnd(fw: seq<byte>, k: nat, hdrLen: nat)
    requires HdrLen(k) <= |fw| && k > 0
    ensures Table(fw, k, hdrLen)[k - 1].addr + Table(fw, k, hdrLen)[k - 1].len
            == hdrLen + SumLen(Table(fw, k, hdrLen))
  {
    var prev := Table(fw, k - 1, hdrLen);
    SumLenAppend(prev, SectionAt(fw, k - 1, hdrLen + SumLen(prev)));
  }

  /** The payloads tile the image after the headers: the first starts at the
      header length, each next one where the previous one ends, and the last
      one ends at the end of the image. */
  lemma {:induction false} ParseContiguous(fw: seq<byte>)
    requires Parse(fw).Parsed?
    ensures var info := Parse(fw).info;
      && (info.sectionNum > 0 ==> info.sections[0].addr == info.hdrLen)
      && (forall i, j :: 0 <= i && j == i + 1 && j < info.sectionNum ==>
            info.sections[j].addr == info.sections[i].addr + info.sections[i].len)
      && (info.sectionNum > 0 ==>
            info.sections[info.sectionNum - 1].addr + info.sections[info.sectionNum - 1].len == |fw|)
  {
    ParsedInfo(fw);
    var n := SecNum(fw);
    var h := HdrLen(n);
    var t := Table(fw, n, h);
    if n > 0 {
      TableRow(fw, n, h, 0);
      assert t[0].addr == h + SumLen(Table(fw, 0, h));
      TableEnd(fw, n, h);
    }
    forall i, j | 0 <= i && j == i + 1 && j < n
      ensures t[j].addr == t[i].addr + t[i].len
    {
      TableStep(fw, n, h, i);
    }
  }

  /** Section fields: the length is the declared size plus the checksum
      trailer exactly when the checksum flag is set, and the download
      address is the raw one with its top 3 bits cleared. */
  lemma {:induction false} ParseSectionFields(fw: seq<byte>, i: nat)
    requires Parse(fw).Parsed? && i < Parse(fw).info.sectionNum
    ensures SectionHdrOff(i) + 8 <= |fw|
    ensures var s := Parse(fw).info.sections[i];
      && s.len == SecSize(fw, i) + (if SecChecksum(fw, i) then FWDL_SECTION_CHKSUM_LEN else 0)
      && s.redl == SecRedl(fw, i)
      && s.dladdr == SecRawDlAddr(fw, i) % 0x2000_0000
      && s.dladdr < 0x2000_0000
  {
    ParsedInfo(fw);
    TableRow(fw, SecNum(fw), HdrLen(SecNum(fw)), i);
    DlAddrIsMasked(fw, i);
  }

  /** An image whose headers are kept but whose length changes by any amount
      (a byte cut off or appended) no longer parses. */
  lemma {:induction false} ParseRejectsResize(fw: seq<byte>, fw': seq<byte>)
    requires Parse(fw).Parsed?
    requires |fw'| != |fw|
    requires |fw'| >= Parse(fw).info.hdrLen && fw'[..Parse(fw).info.hdrLen] == fw[..Parse(fw).info.hdrLen]
    ensures Parse(fw').ParseError?
  {
    var h := Parse(fw).info.hdrLen;
    assert fw'[SEC_NUM_OFF] == fw'[..h][SEC_NUM_OFF] == fw[..h][SEC_NUM_OFF] == fw[SEC_NUM_OFF];
    forall j | FW_HDR_SIZE <= j < h ensures fw[j] == fw'[j] {
      assert fw[j] == fw[..h][j] && fw'[j] == fw'[..h][j];
    }
    TableFrame(fw, fw', SecNum(fw), h);
  }

  /** Writing the part size into the header changes neither the section
      count nor the section table. */
  lemma {:induction false} PartSizeKeepsParse(fw: seq<byte>, size: u16)
    requires |fw| >= FW_HDR_SIZE
    ensures SecNum(SetPartSize(fw, size)) == SecNum(fw)
    ensures Parse(SetPartSize(fw, size)) == Parse(fw)
  {
    var fw' := SetPartSize(fw, size);
    if |fw| >= HdrLen(SecNum(fw)) {
      TableFrame(fw, fw', SecNum(fw), HdrLen(SecNum(fw)));
    }
  }

  /** A two-section image: 16 payload bytes without checksum, then 10 payload
      bytes with the checksum flag, so the second row is 10 + 8 = 18 bytes long. */
  lemma {:induction false} TwoSectionImage(fw: seq<byte>)
    requires |fw| == HdrLen(2) + 16 + 18 && SecNum(fw) == 2
    requires SecSize(fw, 0) == 16 && !SecChecksum(fw, 0)
    requires SecSize(fw, 1) == 10 && SecChecksum(fw, 1)
    ensures Parse(fw).Parsed?
    ensures Parse(fw).info.sections[0].len == 16 && Parse(fw).info.sections[1].len == 18
    ensures Parse(fw).info.sections[0].addr == 64 && Parse(fw).info.sections[1].addr == 80
    ensures SumLen(Parse(fw).info.sections) == |fw| - Parse(fw).info.hdrLen
  {
    var s0, s1 := SectionAt(fw, 0, 64), SectionAt(fw, 1, 80);
    assert s0.len == 16 && s1.len == 18;
    SumLenAppend([], s0);
    assert Table(fw, 1, 64) == [s0];
    assert SumLen([s0]) == 16;
    SumLenAppend([s0], s1);
    assert Table(fw, 2, 64) == [s0, s1];
    assert SumLen([s0, s1]) == 34;
  }

  // ---------------------------------------------------------------------
  // The parser as written: it trusts the section count and reads the
  // section headers (and rewrites header word 7) without comparing any
  // offset with the image length first. `mem` is the memory from the start
  // of the image on, `len` the image length.

  /** One past the last byte the parser as written reads or writes: header
      words 6 and 7, then the first 8 bytes of every section header. */
  function TouchedEnd(n: nat): nat
  {
    if n == 0 then FW_HDR_SIZE else SectionHdrOff(n - 1) + 8
  }

  function ParseAsWritten(mem: seq<byte>, len: nat): (r: ParseResult)
    requires |mem| >= FW_HDR_SIZE && |mem| >= HdrLen(SecNum(mem))
    ensures r.Parsed? ==> TouchedEnd(SecNum(mem)) <= len
  {
    var n := SecNum(mem);
    var hdrLen := HdrLen(n);
    var t := Table(mem, n, hdrLen);
    if hdrLen + SumLen(t) != len then ParseError(-EINVAL)
    else Parsed(BinInfo(n, hdrLen, t))
  }

  /** An empty image: the parser as written still reads the section count
      and rewrites the part size, 32 bytes beyond its end. */
  lemma {:induction false} AsWrittenReadsPastImage()
    ensures var mem := seq(FW_HDR_SIZE, _ => 0);
      && SecNum(mem) == 0
      && ParseAsWritten(mem, 0) == ParseError(-EINVAL)
      && TouchedEnd(SecNum(mem)) > 0
  {
  }

  /** A 32-byte image announcing one section: the parser as written reads
      its section header, which lies wholly beyond the image. */
  lemma {:induction false} AsWrittenReadsSectionHdrPastImage()
    ensures var mem := seq(HdrLen(1), j => if j == SEC_NUM_OFF then 1 else 0);
      && SecNum(mem) == 1
      && ParseAsWritten(mem, FW_HDR_SIZE) == ParseError(-EINVAL)
      && TouchedEnd(SecNum(mem)) > FW_HDR_SIZE
  {
    var mem := seq(HdrLen(1), j => if j == SEC_NUM_OFF then 1 else 0);
    assert SumLen(Table(mem, 1, HdrLen(1))) >= 0;
  }

  /** The truncation checks of `Parse` change no outcome: on every image it
      returns what the parser as written returns, while never touching a
      byte beyond the image. */
  lemma {:induction false} ParseMatchesAsWritten(mem: seq<byte>, len: nat)
    requires |mem| >= FW_HDR_SIZE && |mem| >= HdrLen(SecNum(mem)) && len <= |mem|
    ensures Parse(mem[..len]) == ParseAsWritten(mem, len)
    ensures Parse(mem[..len]).Parsed? ==> TouchedEnd(SecNum(mem)) <= len
  {
    var fw := mem[..len];
    var n := SecNum(mem);
    var h := HdrLen(n);
    if len >= h {
      assert fw[SEC_NUM_OFF] == mem[SEC_NUM_OFF];
      TableFrame(fw, mem, n, h);
    }
  }

  /** Every image shorter than the headers it announces is rejected. */
  lemma {:induction false} ParseRejectsTruncated(fw: seq<byte>)
    requires |fw| < FW_HDR_SIZE || |fw| < HdrLen(SecNum(fw))
    ensures Parse(fw) == ParseError(-EINVAL)
  {
  }

  // ---------------------------------------------------------------------
  // The parser

  /** One pass of the walk: the GET_FWSECTION_HDR_* reads of the section
      header at `pos`, with the checksum trailer added to the length and
      the address masked to 29 bits; the payload lies at `bin`. */
  method ReadSectionHdr(fw: array<byte>, i: nat, pos: nat, bin: nat) returns (s: SectionInfo)
    requires pos == SectionHdrOff(i) && pos + 8 <= fw.Length
    ensures s == SectionAt(fw[..], i, bin)
  {
    var b0: int, b1: int, b2: int, b3: int := fw[pos], fw[pos + 1], fw[pos + 2], fw[pos + 3];
    var b4: int, b5: int, b6: int, b7: int := fw[pos + 4], fw[pos + 5], fw[pos + 6], fw[pos + 7];
    var len := b4 + 0x100 * b5 + 0x1_0000 * b6;
    if (b7 / 0x10) % 2 == 1 {
      len := len + FWDL_SECTION_CHKSUM_LEN;
    }
    s := SectionInfo(len, (b7 / 0x20) % 2 == 1, b0 + 0x100 * b1 + 0x1_0000 * b2 + 0x100_0000 * (b3 % 0x20), bin);
  }

  /**
   * The section walk of rtw89_fw_hdr_parser: one cursor (`pos`) steps over
   * the section headers, the other (`bin`) over the payloads.
   */
  method WalkSections(fw: array<byte>, n: nat, hdrLen: nat) returns (sections: seq<SectionInfo>, bin: nat)
    requires HdrLen(n) <= fw.Length
    ensures sections == Table(fw[..], n, hdrLen)
    ensures bin == hdrLen + SumLen(sections)
  {
    bin := hdrLen;
    sections := [];
    var pos := FW_HDR_SIZE;
    for i := 0 to n
      invariant pos == SectionHdrOff(i)
      invariant sections == Table(fw[..], i, hdrLen)
      invariant bin == hdrLen + SumLen(sections)
    {
      var s := ReadSectionHdr(fw, i, pos, bin);
      SumLenAppend(sections, s);
      sections := sections + [s];
      bin := bin + s.len;
      pos := pos + FW_SECTION_HDR_SIZE;
    }
  }

  /**
   * rtw89_fw_hdr_parser: writes the per-packet size into the image header,
   * then builds the section table and checks that the last payload ends
   * exactly at the end of the image.
   */
  method HdrParser(fw: array<byte>) returns (r: ParseResult)
    modifies fw
    ensures r == Parse(old(fw[..]))
    ensures fw[..] == if fw.Length >= FW_HDR_SIZE
                      then SetPartSize(old(fw[..]), FWDL_SECTION_PER_PKT_LEN)
                      else old(fw[..])
  {
    ghost var img := fw[..];
    if fw.Length < FW_HDR_SIZE {
      return ParseError(-EINVAL);
    }
    var n := fw[SEC_NUM_OFF] as nat;
    var hdrLen := FW_HDR_SIZE + n * 16;
    var part: u16 := FWDL_SECTION_PER_PKT_LEN;
    fw[PART_SIZE_OFF] := part % 0x100;
    fw[PART_SIZE_OFF + 1] := part / 0x100;
    assert fw[..] == SetPartSize(img, part);
    PartSizeKeepsParse(img, part);
    if fw.Length < hdrLen {
      return ParseError(-EINVAL);
    }
    var sections, bin := WalkSections(fw, n, hdrLen);
    if bin != fw.Length {
      return ParseError(-EINVAL);
    }
    return Parsed(BinInfo(n, hdrLen, sections));
  }
}

=== FILE: h2c_header.dfy ===
/**
 * The 8-byte H2C (host-to-chip) command header, struct fwcmd_hdr: two
 * little-endian words.
 *   hdr0: bits 7:0 delivery type, 15:8 function, 21:16 class, 23:22 category,
 *         31:24 sequence number
 *   hdr1: bits 13:0 total length (header included), bit 14 receive-ack,
 *         bit 15 done-ack
 * The headers are built as values here; the session counter they draw on is
 * a field of the device (see Rtw89.Rtw89Dev.PktSetHdr).
 */
module H2cHeader {
  import opened Base

  const H2C_HEADER_LEN: nat := 8

  const FWCMD_TYPE_H2C: u8 := 0
  const H2C_CAT_MAC: u8 := 1
  const H2C_CAT_OUTSRC: u8 := 2
  const H2C_CL_MAC_FWDL: u8 := 3
  const H2C_FUNC_MAC_FWHDR_DL: u8 := 0

  datatype H2cHdr = H2cHdr(
    delType: nat,
    cat: nat,
    cls: nat,
    func: nat,
    sn: nat,
    totalLen: nat,
    recAck: bool,
    doneAck: bool)

  /** Every field fits its bit field. */
  predicate Fits(h: H2cHdr)
  {
    h.delType < 0x100 && h.cat < 4 && h.cls < 0x40 && h.func < 0x100
      && h.sn < 0x100 && h.totalLen < 0x4000
  }

  /** The value of word hdr0 (the FIELD_PREP terms or-ed together). */
  function Hdr0(h: H2cHdr): u32
    requires Fits(h)
  {
    h.delType + 0x100 * h.func + 0x1_0000 * h.cls + 0x40_0000 * h.cat + 0x100_0000 * h.sn
  }

  /** The value of word hdr1. */
  function Hdr1(h: H2cHdr): u32
    requires Fits(h)
  {
    h.totalLen + (if h.recAck then 0x4000 else 0) + (if h.doneAck then 0x8000 else 0)
  }

  /** The header as it goes on the wire. */
  function Encode(h: H2cHdr): (b: seq<byte>)
    requires Fits(h)
    ensures |b| == H2C_HEADER_LEN
    ensures Le32(b, 0) == Hdr0(h) && Le32(b, 4) == Hdr1(h)
  {
    [h.delType, h.func, h.cls + 0x40 * h.cat, h.sn,
     h.totalLen % 0x100,
     h.totalLen / 0x100 + (if h.recAck then 0x40 else 0) + (if h.doneAck then 0x80 else 0),
     0, 0]
  }

  /** Reads the fields back from the first 8 bytes of a frame. */
  function Decode(b: seq<byte>): (h: H2cHdr)
    requires |b| >= H2C_HEADER_LEN
    ensures Fits(h)
  {
    H2cHdr(b[0], b[2] / 0x40, b[2] % 0x40, b[1], b[3],
           b[4] + 0x100 * ((b[5] as int) % 0x40), (b[5] / 0x40) % 2 == 1, b[5] / 0x80 == 1)
  }

  lemma {:induction false} DecodeEncode(h: H2cHdr, payload: seq<byte>)
    requires Fits(h)
    ensures Decode(Encode(h) + payload) == h
  {
    var b := Encode(h) + payload;
    assert b[5] == h.totalLen / 0x100 + (if h.recAck then 0x40 else 0) + (if h.doneAck then 0x80 else 0);
    assert b[5] % 0x40 == h.totalLen / 0x100;
  }

  /** The counter after one more frame: h2c_seq is a u8, so it wraps. */
  function NextSeq(s: u8): u8
  {
    (s + 1) % 0x100
  }

  /**
   * rtw89_h2c_pkt_set_hdr, as a value: the header built when the session
   * counter holds `s`. FIELD_PREP keeps only the bits that fit each field;
   * `len + H2C_HEADER_LEN` is computed in 32 bits, then cut to 14.
   */
  function SetHdr(s: u8, delType: u8, cat: u8, cls: u8, func: u8,
                  rack: bool, dack: bool, len: u32): (h: H2cHdr)
    ensures Fits(h)
  {
    H2cHdr(delType, cat % 4, cls % 0x40, func, s,
           ((len + H2C_HEADER_LEN) % 0x1_0000_0000) % 0x4000,
           rack || s % 4 == 0, dack)
  }

  /** rtw89_h2c_pkt_set_hdr_fwdl, as a value: no acknowledgement bits. */
  function SetHdrFwdl(s: u8, delType: u8, cat: u8, cls: u8, func: u8, len: u32): (h: H2cHdr)
    ensures Fits(h)
  {
    H2cHdr(delType, cat % 4, cls % 0x40, func, s,
           ((len + H2C_HEADER_LEN) % 0x1_0000_0000) % 0x4000, false, false)
  }

  /** What a frame built by the normal builder says, read back off the wire:
      the sequence field is the counter value, the receive-ack bit is set when
      asked for or when that value is a multiple of 4, the done-ack bit is the
      caller's, and the length field is the payload length plus 8 (modulo the
      14-bit field). */
  lemma {:induction false} SetHdrOnWire(s: u8, delType: u8, cat: u8, cls: u8, func: u8,
                                        rack: bool, dack: bool, len: u32, payload: seq<byte>)
    ensures var h := Decode(Encode(SetHdr(s, delType, cat, cls, func, rack, dack, len)) + payload);
      && h.sn == s
      && (h.recAck <==> rack || s % 4 == 0)
      && h.doneAck == dack
      && h.totalLen == (len + H2C_HEADER_LEN) % 0x4000
      && h.delType == delType && h.func == func && h.cat == cat % 4 && h.cls == cls % 0x40
  {
    DecodeEncode(SetHdr(s, delType, cat, cls, func, rack, dack, len), payload);
  }

  /** The download-phase builder sets neither acknowledgement bit, whatever
      the counter holds, and otherwise matches the normal builder. */
  lemma {:induction false} SetHdrFwdlOnWire(s: u8, delType: u8, cat: u8, cls: u8, func: u8,
                                            len: u32, payload: seq<byte>)
    ensures var h := Decode(Encode(SetHdrFwdl(s, delType, cat, cls, func, len)) + payload);
      && !h.recAck && !h.doneAck && h.sn == s
      && h.totalLen == (len + H2C_HEADER_LEN) % 0x4000
    ensures SetHdrFwdl(s, delType, cat, cls, func, len)
         == SetHdr(s, delType, cat, cls, func, false, false, len).(recAck := false)
  {
    DecodeEncode(SetHdrFwdl(s, delType, cat, cls, func, len), payload);
  }

  /** The counter after n frames built from `start`. */
  function SeqAfter(start: u8, n: nat): u8
  {
    if n == 0 then start else NextSeq(SeqAfter(start, n - 1))
  }

  /**
   * Over a session whose counter was reset to 0, frame n (counting from 0)
   * carries sequence number n mod 256, and its receive-ack bit is forced on
   * exactly when n is a multiple of 4: frames 0, 4, 8, ... across the wrap
   * from 255 back to 0.
   */
  lemma {:induction false} SessionSequence(n: nat)
    ensures SeqAfter(0, n) == n % 0x100
    ensures SeqAfter(0, n) % 4 == 0 <==> n % 4 == 0
  {
    if n > 0 {
      SessionSequence(n - 1);
      WrapStep(n - 1);
    }
    ModOfMod(n);
  }

  /** Counting on from m mod 256 agrees with m + 1 mod 256. */
  lemma {:induction false} WrapStep(m: nat)
    ensures (m % 0x100 + 1) % 0x100 == (m + 1) % 0x100
  {
    var q, r := m / 0x100, m % 0x100;
    assert m == 0x100 * q + r;
    if r < 0xff {
      assert m + 1 == 0x100 * q + (r + 1);
    } else {
      assert m + 1 == 0x100 * (q + 1);
    }
  }

  /** n mod 256 and n agree mod 4, since 4 divides 256. */
  lemma {:induction false} ModOfMod(n: nat)
    ensures (n % 0x100) % 4 == n % 4
  {
    var q, r := n / 0x100, n % 0x100;
    var a, b := r / 4, r % 4;
    assert r == 4 * a + b;
    Mod4Unique(r, a, b);
    Mod4Unique(n, 0x40 * q + a, b);
  }

  lemma {:induction false} Mod4Unique(x: int, q: int, r: int)
    requires x == 4 * q + r && 0 <= r < 4
    ensures x % 4 == r
  {
  }

  /** Hence every frame whose position in the session is a multiple of 4 asks
      for a receive-ack, even if its caller does not. */
  lemma {:induction false} EveryFourthFrameAcked(n: nat, delType: u8, cat: u8, cls: u8, func: u8,
                                                 dack: bool, len: u32)
    requires n % 4 == 0
    ensures SetHdr(SeqAfter(0, n), delType, cat, cls, func, false, dack, len).recAck
  {
    SessionSequence(n);
  }
}

/** The packet buffers the core fills (sk_buff reduced to headroom and data). */
module SkBuff {
  import opened Base
  import H2cHeader

  /** The 24 bytes every H2C buffer reserves in front, beyond the header. */
  const SKB_EXTRA_HEADROOM: nat := 24

  datatype Skb = Skb(headroom: nat, data: seq<byte>)

  /** rtw89_fw_h2c_alloc_skb: an empty buffer with room for the header
      (when asked) and 24 more bytes in front. */
  function AllocSkb(withHdr: bool): (b: Skb)
    ensures b.data == []
    ensures b.headroom == (if withHdr then H2cHeader.H2C_HEADER_LEN else 0) + SKB_EXTRA_HEADROOM
  {
    Skb((if withHdr then H2cHeader.H2C_HEADER_LEN else 0) + SKB_EXTRA_HEADROOM, [])
  }

  /** skb_put_data */
  function PutData(b: Skb, bytes: seq<byte>): (r: Skb)
    ensures r.data == b.data + bytes && r.headroom == b.headroom
  {
    Skb(b.headroom, b.data + bytes)
  }

  /** skb_push followed by a write of the pushed bytes. */
  function Push(b: Skb, bytes: seq<byte>): (r: Skb)
    requires |bytes| <= b.headroom
    ensures r.data == bytes + b.data && r.headroom == b.headroom - |bytes|
  {
    Skb(b.headroom - |bytes|, bytes + b.data)
  }

  /** How an H2C frame is built: a buffer allocated with header room, the
      payload put in, then the encoded header pushed in front. The frame is
      the 8 header bytes followed by the payload, and the 24 extra bytes of
      headroom are left over. */
  lemma H2cFrame(h: H2cHeader.H2cHdr, payload: seq<byte>)
    requires H2cHeader.Fits(h)
    ensures var hdr := H2cHeader.Encode(h);
      && |hdr| <= PutData(AllocSkb(true), payload).headroom
      && Push(PutData(AllocSkb(true), payload), hdr).data == hdr + payload
      && Push(PutData(AllocSkb(true), payload), hdr).headroom == SKB_EXTRA_HEADROOM
  {
  }
}

=== FILE: he_padding.dfy ===
/**
 * The nominal packet padding a station needs per bandwidth (20, 40, 80 MHz),
 * chosen from its HE capabilities: the PPE Thresholds field when present
 * (IEEE Std 802.11ax-2021, section 9.4.2.248.5), otherwise the Nominal
 * Packet Padding subfield of the HE PHY capabilities. The result is 0, 1 or
 * 2, the firmware's code for 0, 8 or 16 microseconds.
 *
 * The PPE Thresholds field starts with NSTS (bits 2:0) and the RU index
 * bitmask (bits 6:3); from bit 7 on come 6-bit records (PPET16, PPET8), for
 * each spatial stream in turn, one record per RU index whose bit is set.
 */
module HePadding {
  import opened Base

  const RTW89_PPE_BW_NUM: nat := 3
  const IEEE80211_PPE_THRES_INFO_PPET_SIZE: nat := 3
  const IEEE80211_PPE_THRES_NSS_MASK: nat := 7
  const IEEE80211_HE_PPE_THRES_MAX_LEN: nat := 25
  const HE_PHY_CAP_LEN: nat := 11

  /** The parts of a station's HE capabilities the decision reads. */
  datatype HeSta = HeSta(hasHe: bool, phyCapInfo: seq<u8>, ppeThres: seq<u8>, rxNss: nat)

  /** The array sizes of struct ieee80211_sta_he_cap; the station has at
      least one receive stream and the chip between one and eight transmit
      streams (only the smaller count is used). */
  predicate ValidSta(sta: HeSta, txNss: nat)
  {
    |sta.phyCapInfo| == HE_PHY_CAP_LEN && |sta.ppeThres| == IEEE80211_HE_PPE_THRES_MAX_LEN
      && 1 <= sta.rxNss && 1 <= txNss <= 8
  }

  /** x >> k */
  function Shr(x: nat, k: nat): nat
  {
    if k == 0 then x else Shr(x / 2, k - 1)
  }

  /** IEEE80211_HE_PHY_CAP6_PPE_THRESHOLD_PRESENT (bit 7 of byte 6). */
  function PpeThPresent(sta: HeSta): bool
    requires |sta.phyCapInfo| == HE_PHY_CAP_LEN
  {
    sta.phyCapInfo[6] / 0x80 == 1
  }

  /** IEEE80211_HE_PHY_CAP9_NOMIMAL_PKT_PADDING_MASK (bits 7:6 of byte 9). */
  function NominalPad(sta: HeSta): (p: u8)
    requires |sta.phyCapInfo| == HE_PHY_CAP_LEN
    ensures p < 4
  {
    sta.phyCapInfo[9] / 0x40
  }

  /** IEEE80211_PPE_THRES_RU_INDEX_BITMASK_MASK (bits 6:3 of byte 0). */
  function RuBitmap(sta: HeSta): (ru: nat)
    requires |sta.ppeThres| == IEEE80211_HE_PPE_THRES_MAX_LEN
    ensures ru < 16
  {
    (sta.ppeThres[0] / 8) % 16
  }

  /** ru_bitmap & BIT(i) */
  function RuBit(ru: nat, i: nat): bool
  {
    Shr(ru, i) % 2 == 1
  }

  /** How many of bits 0 .. i-1 of the bitmask are set. */
  function SetBelow(ru: nat, i: nat): (c: nat)
    ensures c <= i
  {
    if i == 0 then 0 else SetBelow(ru, i - 1) + (if RuBit(ru, i - 1) then 1 else 0)
  }

  /** The spatial stream whose records are used: min(rx_nss, tx_nss) - 1. */
  function Nss(sta: HeSta, txNss: nat): (nss: nat)
    requires ValidSta(sta, txNss)
    ensures nss < 8
  {
    Min(sta.rxNss, txNss) - 1
  }

  /** Bit position of the first record of stream Nss: the driver's
      7 + (hweight8(ru_bitmap) * 3 * 2) * nss. */
  function FirstPpet(sta: HeSta, txNss: nat): nat
    requires ValidSta(sta, txNss)
  {
    7 + (SetBelow(RuBitmap(sta), 4) * 6) * Nss(sta, txNss)
  }

  /** Bit position of the record for bandwidth i (whose bitmask bit is set). */
  function PpetPos(sta: HeSta, txNss: nat, i: nat): nat
    requires ValidSta(sta, txNss) && i < RTW89_PPE_BW_NUM
  {
    FirstPpet(sta, txNss) + 6 * SetBelow(RuBitmap(sta), i)
  }

  /** The 16-bit read that fetches a record never leaves the 25-byte PPE
      Thresholds field, and every bit position fits the driver's u8 cursor. */
  lemma {:induction false} PpetReadInBounds(sta: HeSta, txNss: nat, i: nat)
    requires ValidSta(sta, txNss) && i < RTW89_PPE_BW_NUM
    ensures PpetPos(sta, txNss, i) / 8 + 2 <= IEEE80211_HE_PPE_THRES_MAX_LEN
    ensures PpetPos(sta, txNss, i) + 6 < 0x100
  {
    var p := SetBelow(RuBitmap(sta), 4);
    var nss := Nss(sta, txNss);
    assert p * 6 * nss <= 24 * 7 by {
      assert p <= 4 && nss <= 7;
      MulMono(p * 6, 24, nss, 7);
    }
    assert SetBelow(RuBitmap(sta), i) <= 2;
  }

  lemma MulMono(a: nat, b: nat, c: nat, d: nat)
    requires a <= b && c <= d
    ensures a * c <= b * d
  {
    assert a * c <= b * c;
    assert b * c <= b * d;
  }

  /** The padding one record asks for. */
  function PadFromPpe(ppe16: nat, ppe8: nat): (p: u8)
    ensures p <= 2
  {
    if ppe16 != 7 && ppe8 == 7 then 2
    else if ppe8 != 7 then 1
    else 0
  }

  /** The padding the PPE Thresholds field gives bandwidth i: 1 when its RU
      index is absent, otherwise decoded from its record. */
  function PadAt(sta: HeSta, txNss: nat, i: nat): (p: u8)
    requires ValidSta(sta, txNss) && i < RTW89_PPE_BW_NUM
    ensures p <= 2
  {
    if !RuBit(RuBitmap(sta), i) then 1
    else
      var n := PpetPos(sta, txNss, i);
      PpetReadInBounds(sta, txNss, i);
      var ppe := Le16(sta.ppeThres, n / 8);
      PadFromPpe(Shr(ppe, n % 8) % 8, Shr(ppe, n % 8 + 3) % 8)
  }

  function ThresholdPads(sta: HeSta, txNss: nat): (p: seq<u8>)
    requires ValidSta(sta, txNss)
    ensures |p| == RTW89_PPE_BW_NUM
  {
    [PadAt(sta, txNss, 0), PadAt(sta, txNss, 1), PadAt(sta, txNss, 2)]
  }

  /**
   * The padding decision as intended: a non-HE station keeps the caller's
   * pads; an HE station without PPE thresholds gets its nominal padding on
   * every bandwidth; otherwise each bandwidth gets what its record says.
   */
  function Pads(sta: HeSta, txNss: nat, pads0: seq<u8>): (p: seq<u8>)
    requires ValidSta(sta, txNss) && |pads0| == RTW89_PPE_BW_NUM
    ensures |p| == RTW89_PPE_BW_NUM
    ensures !sta.hasHe ==> p == pads0
    ensures sta.hasHe && !PpeThPresent(sta) ==>
      forall i :: 0 <= i < RTW89_PPE_BW_NUM ==> p[i] == NominalPad(sta)
    ensures sta.hasHe && PpeThPresent(sta) ==>
      forall i :: 0 <= i < RTW89_PPE_BW_NUM ==> p[i] == PadAt(sta, txNss, i) && p[i] <= 2
  {
    if !sta.hasHe then pads0
    else if !PpeThPresent(sta) then [NominalPad(sta), NominalPad(sta), NominalPad(sta)]
    else ThresholdPads(sta, txNss)
  }

  /** The decision as fw.c writes it: the nominal padding is stored and then
      overwritten by the threshold loop, which runs in every case. */
  function PadsAsWritten(sta: HeSta, txNss: nat, pads0: seq<u8>): (p: seq<u8>)
    requires ValidSta(sta, txNss) && |pads0| == RTW89_PPE_BW_NUM
    ensures |p| == RTW89_PPE_BW_NUM
  {
    if !sta.hasHe then pads0 else ThresholdPads(sta, txNss)
  }

  /** An HE station without PPE thresholds whose nominal padding is 16
      microseconds (code 2): as written, every bandwidth gets code 1, not 2. */
  lemma {:induction false} NominalPaddingLost()
    ensures var sta := HeSta(true, [0, 0, 0, 0, 0, 0, 0, 0, 0, 0x80, 0], seq(25, _ => 0), 1);
      && ValidSta(sta, 1)
      && !PpeThPresent(sta) && NominalPad(sta) == 2
      && PadsAsWritten(sta, 1, [0, 0, 0]) == [1, 1, 1]
      && Pads(sta, 1, [0, 0, 0]) == [2, 2, 2]
  {
    var sta := HeSta(true, [0, 0, 0, 0, 0, 0, 0, 0, 0, 0x80, 0], seq(25, _ => 0), 1);
    assert RuBitmap(sta) == 0;
    assert !RuBit(0, 0) && !RuBit(0, 1) && !RuBit(0, 2);
  }

  /** The threshold loop over the three bandwidths (fw.c, after the
      capability checks). */
  method FillFromThresholds(sta: HeSta, txNss: nat, pads: array<u8>)
    requires ValidSta(sta, txNss) && pads.Length == RTW89_PPE_BW_NUM
    modifies pads
    ensures pads[..] == ThresholdPads(sta, txNss)
  {
    var ru := RuBitmap(sta);
    var nss := Nss(sta, txNss);
    PpetReadInBounds(sta, txNss, 0);
    var n: u8 := 7 + (SetBelow(ru, 4) * IEEE80211_PPE_THRES_INFO_PPET_SIZE * 2) * nss;
    for i := 0 to RTW89_PPE_BW_NUM
      invariant i < RTW89_PPE_BW_NUM ==> n == PpetPos(sta, txNss, i)
      invariant forall k :: 0 <= k < i ==> pads[k] == PadAt(sta, txNss, k)
    {
      if !RuBit(ru, i) {
        pads[i] := 1;
      } else {
        PpetReadInBounds(sta, txNss, i);
        var idx := n / 8;
        var sh := n % 8;
        n := n + IEEE80211_PPE_THRES_INFO_PPET_SIZE * 2;
        var ppe := Le16(sta.ppeThres, idx);
        var ppe16 := Shr(ppe, sh) % 8;
        sh := sh + IEEE80211_PPE_THRES_INFO_PPET_SIZE;
        var ppe8 := Shr(ppe, sh) % 8;
        if ppe16 != 7 && ppe8 == 7 {
          pads[i] := 2;
        } else if ppe8 != 7 {
          pads[i] := 1;
        } else {
          pads[i] := 0;
        }
      }
    }
  }

  /** __get_sta_he_pkt_padding as fw.c writes it. */
  method GetStaHePktPaddingAsWritten(sta: HeSta, txNss: nat, pads: array<u8>)
    requires ValidSta(sta, txNss) && pads.Length == RTW89_PPE_BW_NUM
    modifies pads
    ensures pads[..] == PadsAsWritten(sta, txNss, old(pads[..]))
  {
    if !sta.hasHe {
      return;
    }
    if !PpeThPresent(sta) {
      var pad := NominalPad(sta);
      for i := 0 to RTW89_PPE_BW_NUM {
        pads[i] := pad;
      }
    }
    FillFromThresholds(sta, txNss, pads);
  }

  /** __get_sta_he_pkt_padding with the return after the nominal padding. */
  method GetStaHePktPadding(sta: HeSta, txNss: nat, pads: array<u8>)
    requires ValidSta(sta, txNss) && pads.Length == RTW89_PPE_BW_NUM
    modifies pads
    ensures pads[..] == Pads(sta, txNss, old(pads[..]))
  {
    if !sta.hasHe {
      return;
    }
    if !PpeThPresent(sta) {
      var pad := NominalPad(sta);
      for i := 0 to RTW89_PPE_BW_NUM
        invariant forall k :: 0 <= k < i ==> pads[k] == pad
      {
        pads[i] := pad;
      }
      return;
    }
    FillFromThresholds(sta, txNss, pads);
  }
}

=== FILE: poll.dfy ===
/**
 * read_poll_timeout / read_poll_timeout_atomic as the core uses them: read a
 * register until a condition holds or the time budget runs out. Time is not
 * modelled; instead the successive values the register shows before the
 * budget is spent are given as a non-empty sequence of samples. The poll
 * stops at the first sample that satisfies the condition; when none does it
 * reports a timeout with the last value read.
 */
module Poll {
  import opened Base

  datatype PollResult = PollResult(ok: bool, val: u32)

  /** The outcome of a poll over `samples`, defined by recursion. */
  function PollSpec(samples: seq<u32>, cond: u32 -> bool): (r: PollResult)
    requires |samples| > 0
    ensures r.val in samples
    ensures r.ok == cond(r.val)
  {
    if cond(samples[0]) || |samples| == 1 then PollResult(cond(samples[0]), samples[0])
    else PollSpec(samples[1..], cond)
  }

  /** The return code: 0 when the condition was met, -ETIMEDOUT otherwise. */
  function PollRet(p: PollResult): (r: int)
    ensures r == 0 || r == -ETIMEDOUT
    ensures r == 0 <==> p.ok
  {
    if p.ok then 0 else -ETIMEDOUT
  }

  /** The poll succeeds exactly when some sample satisfies the condition;
      it then yields the first such sample, and otherwise the last one. */
  lemma {:induction false} PollSpecMeaning(samples: seq<u32>, cond: u32 -> bool)
    requires |samples| > 0
    ensures PollSpec(samples, cond).ok <==> exists i :: 0 <= i < |samples| && cond(samples[i])
    ensures PollSpec(samples, cond).ok ==>
      exists i :: 0 <= i < |samples| && samples[i] == PollSpec(samples, cond).val
        && cond(samples[i]) && forall j :: 0 <= j < i ==> !cond(samples[j])
    ensures !PollSpec(samples, cond).ok ==> PollSpec(samples, cond).val == samples[|samples| - 1]
  {
    if cond(samples[0]) || |samples| == 1 {
    } else {
      var rest := samples[1..];
      PollSpecMeaning(rest, cond);
      if PollSpec(rest, cond).ok {
        var i :| 0 <= i < |rest| && rest[i] == PollSpec(rest, cond).val
          && cond(rest[i]) && forall j :: 0 <= j < i ==> !cond(rest[j]);
        assert samples[i + 1] == rest[i];
        forall j | 0 <= j < i + 1
          ensures !cond(samples[j])
        {
          if j > 0 { assert samples[j] == rest[j - 1]; }
        }
      } else {
        forall i | 0 <= i < |samples|
          ensures !cond(samples[i])
        {
          if i > 0 { assert samples[i] == rest[i - 1]; }
        }
      }
    }
  }

  /** read_poll_timeout's return code: 0 exactly when some sample meets the
      condition, and -ETIMEDOUT when none does. */
  lemma PollOutcome(samples: seq<u32>, cond: u32 -> bool)
    requires |samples| > 0
    ensures PollRet(PollSpec(samples, cond)) == 0 <==> exists i :: 0 <= i < |samples| && cond(samples[i])
    ensures (forall i :: 0 <= i < |samples| ==> !cond(samples[i])) ==>
      PollRet(PollSpec(samples, cond)) == -ETIMEDOUT
  {
    PollSpecMeaning(samples, cond);
  }

  /** The polling loop itself: reads one sample per iteration. */
  method ReadPollTimeout(samples: seq<u32>, cond: u32 -> bool) returns (ret: int, val: u32)
    requires |samples| > 0
    ensures ret == PollRet(PollSpec(samples, cond))
    ensures val == PollSpec(samples, cond).val
  {
    var i := 0;
    val := samples[0];
    while !cond(val) && i + 1 < |samples|
      invariant 0 <= i < |samples| && val == samples[i]
      invariant PollSpec(samples[i..], cond) == PollSpec(samples, cond)
      decreases |samples| - i
    {
      assert samples[i..][1..] == samples[i + 1..];
      i := i + 1;
      val := samples[i];
    }
    ret := if cond(val) then 0 else -ETIMEDOUT;
  }
}

=== FILE: segment.dfy ===
/**
 * Cutting a section payload into download packets: each packet carries
 * min(remaining, per-packet limit) bytes, in order, until nothing is left.
 */
module Segment {
  import opened Base

  /** The packets a payload is cut into when each holds at most `c` bytes. */
  function Chunks<T>(data: seq<T>, c: nat): (cs: seq<seq<T>>)
    requires c > 0
    ensures |cs| == 0 <==> |data| == 0
    ensures forall i :: 0 <= i < |cs| ==> 0 < |cs[i]| <= c
    decreases |data|
  {
    if |data| == 0 then []
    else
      var k := Min(|data|, c);
      [data[..k]] + Chunks(data[k..], c)
  }

  /** The packets laid end to end. */
  function Flatten<T>(cs: seq<seq<T>>): seq<T>
  {
    if |cs| == 0 then [] else cs[0] + Flatten(cs[1..])
  }

  lemma {:induction false} FlattenAppend<T>(a: seq<seq<T>>, b: seq<seq<T>>)
    ensures Flatten(a + b) == Flatten(a) + Flatten(b)
  {
    if |a| == 0 {
      assert a + b == b;
    } else {
      assert (a + b)[1..] == a[1..] + b;
      FlattenAppend(a[1..], b);
    }
  }

  /** The packets carry the payload exactly: nothing lost, nothing repeated,
      nothing reordered. */
  lemma {:induction false} ChunksFlatten<T>(data: seq<T>, c: nat)
    requires c > 0
    ensures Flatten(Chunks(data, c)) == data
    decreases |data|
  {
    if |data| > 0 {
      var k := Min(|data|, c);
      var cs := Chunks(data, c);
      assert cs[0] == data[..k] && cs[1..] == Chunks(data[k..], c);
      ChunksFlatten(data[k..], c);
      assert data[..k] + data[k..] == data;
    }
  }

  /** There are ceil(|data| / 2020) packets of the download size; all but
      the last hold exactly 2020 bytes and the last holds the rest (between 1
      and 2020 bytes). */
  lemma {:induction false} ChunkSizes<T>(data: seq<T>)
    ensures var cs := Chunks(data, 2020);
      && |cs| == (|data| + 2019) / 2020
      && (forall i :: 0 <= i < |cs| - 1 ==> |cs[i]| == 2020)
      && (|cs| > 0 ==> 0 < |cs[|cs| - 1]| <= 2020 && |cs[|cs| - 1]| == |data| - 2020 * (|cs| - 1))
    decreases |data|
  {
    var cs := Chunks(data, 2020);
    if |data| > 0 {
      var k := Min(|data|, 2020);
      var rest := Chunks(data[k..], 2020);
      assert cs == [data[..k]] + rest;
      ChunkSizes(data[k..]);
      if |data| > 2020 {
        forall i | 0 <= i < |cs| - 1
          ensures |cs[i]| == 2020
        {
          if i > 0 { assert cs[i] == rest[i - 1]; }
        }
        assert cs[|cs| - 1] == rest[|rest| - 1];
      }
    }
  }
}
